=== FILE: README.md ===
# VPN subscription backend: accounts, subscriptions and the payment ledger

This project models the core of a small VPN-subscription backend (a Koa +
GraphQL server on MongoDB). The backend keeps three collections:

- `users`: accounts with a password digest, the list of live login tokens, a
  WireGuard key pair, an optional referrer (`ref`) and a numeric `octets`
  that addresses the client inside the tunnel;
- `subscriptions`: one row per client with the key and the expiry date;
- `payments`: a ledger of top-up invoices and affiliate withdrawals.

The GraphQL resolvers sign users up and in, change passwords and delete
accounts. They also create invoices, let an admin grant days or pay out
affiliate rewards in BTC, and let a user turn their affiliate balance into
days. A webhook reconciles invoice statuses reported by the payment
processor and extends the subscription when an invoice becomes CONFIRMED. A
middleware downgrades requests whose token is no longer in the user's
token list. Two resolvers render WireGuard configurations from a text
template, one file or a whole archive of them.

Layout:

- `common.dfy`: `Option` and `Result`.
- `dates.dfy`: dates as whole day counts and `addDays`.
- `ledger.dfy`: documents, the database value `Db`, the `findOne` lookups,
  the `octets` allocation, the expiry extension and the store invariant
  `Valid`.
- `accounts.dfy`: sign-up, login, password change, account deletion and the
  token middleware as functions from one `Db` to the next.
- `affiliate.dfy`: the filtered sums behind both affiliate balances, the
  days conversion, and the invoice, admin-grant and withdrawal resolvers.
- `webhook.dfy`: the payment-processor notification handler.
- `wireguard.dfy`: the configuration template and a reader for it, the exit
  port, and the archive entries built by two nested loops.
- `configs.dfy`: the `getConfig` and `getAllConfigsZIP` resolvers.
- `store.dfy`: the class `Store`, whose fields are the three collections.
  Each resolver is a method that reads and writes them in the handler's
  order. Each method is proved equal to the function above over a snapshot,
  and it keeps `Valid`: ids, usernames and numeric `octets` stay distinct.

Everything a handler takes from the outside is a parameter:
- the clock (`now`);
- the random tokens, key pairs and ObjectIds;
- argon2's digest and check;
- the processor's invoice answers and its BTC rate;
- the servers collection.

## Model

| member | source | states |
|---|---|---|
| Ledger.FindUser | graphql/resolvers.js:77 | `findOne`: the index of the first user the filter selects, none exactly when no user matches |
| Ledger.FindUserAt | graphql/resolvers.js:155 | in a valid store, a user's id or username finds exactly that user |
| Ledger.HighestOctets | graphql/resolvers.js:68 | the descending `octets` sort's first value: the maximum numeric `octets`, missing values sorting last |
| Ledger.NextOctets | graphql/resolvers.js:68-69 | the new `octets` exceeds every existing one; it is 1 when none is numeric, else one more than some user's, even when all are negative: highest + 1 |
| Ledger.ExtendedRow | graphql/resolvers.js:156-158 | the upserted row: expiry is the stored `expireAt + days` even if in the past, or `now + days` with no row; key and octets copied |
| Ledger.Payment.WithStatus | routes.js:21 | `$set: {status}` gives the same document with only the status replaced; in particular type, `ref` and invoice id are kept |
| Dates.AddDaysZero | index.js:22-26 | `addDays(0)` is the identity |
| Dates.AddDaysCompose | index.js:22-26 | `addDays(a)` then `addDays(b)` is `addDays(a + b)` |
| Dates.AddDaysMonotonic | index.js:22-26 | more days never give an earlier date |
| Accounts.SignUpTakenUsername | graphql/resolvers.js:61-62 | an existing username fails with "User exists" and nothing is written |
| Accounts.SignUpInserts | graphql/resolvers.js:70-71 | a new username appends exactly one user with the issued id, that username, the given email and `ref`, the digest, the key pair, no withdrawals, created now and the single token; the result is the session; the store stays valid |
| Accounts.SignUpOctets | graphql/resolvers.js:68-70 | the new user's `octets` is above every numeric one; it is 1 when none is numeric, else one more than an existing value |
| Accounts.SignUpTrial | graphql/resolvers.js:72-73 | a subscription row is added for the new id: same key and octets, expiring `TRIAL_DAYS` after now; other rows unchanged |
| Accounts.SignUpKeepsValid | graphql/resolvers.js:61-71 | sign-up keeps ids, usernames and numeric `octets` distinct |
| Accounts.LoginRejects | graphql/resolvers.js:77-80 | an unknown username or a wrong password gives "Unathorized" and changes nothing |
| Accounts.LoginAppendsToken | graphql/resolvers.js:81-83 | a correct login appends one token to that user's list, keeps the earlier ones, and changes no other document |
| Accounts.LoginKeepsSessions | graphql/resolvers.js:82 | every session valid before a login stays valid, and the new one is valid |
| Accounts.ChangePasswordResetsTokens | graphql/resolvers.js:86-90 | the caller's digest is replaced and the token list becomes exactly the one new token; nothing else changes |
| Accounts.ChangePasswordRevokesSessions | graphql/resolvers.js:89 | afterwards the caller's only valid session token is the new one |
| Accounts.ChangePasswordUnknownUser | graphql/resolvers.js:89-90 | when no user has the caller's id, nothing changes but a session is still issued |
| Accounts.DeleteAccountRemoves | graphql/resolvers.js:120-123 | the caller's document is removed, the rest keep their order, no other collection changes |
| Accounts.DeleteAccountRevokesSessions | graphql/resolvers.js:121 | after deletion no token of the caller authenticates |
| Accounts.AuthenticateKeeps | index.js:37-38 | a request whose token the user holds keeps its user |
| Accounts.AuthenticateDowngrades | index.js:38-40 | a request whose token the user does not hold becomes anonymous |
| Accounts.AuthenticateAnonymous | index.js:37 | an anonymous request passes through unchanged |
| Affiliate.SumAppend | graphql/resolvers.js:53 | appending a document adds its matching contribution to a `$sum` |
| Affiliate.WithdrawedSumIsZero | graphql/resolvers.js:54 | withdrawals carry no `ref`, so every `ref`-filtered withdrawn sum is 0 |
| Affiliate.RewardSumIgnoresType | graphql/resolvers.js:172 | the `type: 'TOP_UP'` filter never changes a `ref`-filtered reward sum |
| Affiliate.BalanceIsConfirmedRewards | graphql/resolvers.js:53-55 | the balance is the confirmed rewards of referred top-ups, and the days resolver's balance equals it |
| Affiliate.WithdrawalKeepsBalance | graphql/resolvers.js:166 | recording any withdrawal leaves both balances unchanged |
| Affiliate.UnconfirmedKeepsBalance | graphql/resolvers.js:145 | an unconfirmed entry adds nothing to a balance |
| Affiliate.SumSetStatus | routes.js:21 | a status change alters a sum by that entry's old and new contributions only |
| Affiliate.ConfirmRaisesBalance | routes.js:21 | confirming a referred top-up raises the referrer's balance by exactly its reward |
| Affiliate.NoDaysWithoutBalance | graphql/resolvers.js:176-178 | a balance of zero or less never converts to a whole day |
| Affiliate.WithdrawalDaysExample | graphql/resolvers.js:176 | 0.5 BTC at 30000 EUR/BTC and 5 EUR a month gives 90000 days |
| Affiliate.GetInvoiceRecordsTopUp | graphql/resolvers.js:125-151 | one UNCONFIRMED TOP_UP entry is appended: price `MONTH_PRICE*months`, the months and payment type, the caller's `ref`, key and id, the invoice id, URL, times and reward; existing entries and balances unchanged |
| Affiliate.GetInvoiceNeedsUser | graphql/resolvers.js:125 | without a session or a user document the resolver throws and writes nothing |
| Affiliate.AddDaysToClientRefusesNonAdmin | graphql/resolvers.js:154-161 | a non-admin gets "No-no-no" and nothing changes |
| Affiliate.AddDaysToClientExtends | graphql/resolvers.js:155-159 | an admin grant sets the client's expiry to stored + days or now + days, copies key and octets, and touches nothing else |
| Affiliate.WithdrawBTCRefusesNonAdmin | graphql/resolvers.js:164-169 | a non-admin gets "No-no-no" and nothing is inserted |
| Affiliate.WithdrawBTCRecords | graphql/resolvers.js:164-167 | an admin payout appends one CONFIRMED `AFFILATE_WITHDRAWAL_BTC` entry for any amount, and the client's balance does not move |
| Affiliate.WithdrawDaysInsufficient | graphql/resolvers.js:176-178 | fewer than one day throws before any write |
| Affiliate.WithdrawDaysExtends | graphql/resolvers.js:172-184 | intended behaviour: otherwise the caller's expiry moves by exactly `days` and the row takes the caller's key and `octets`, one entry of the full balance is appended, the balance stays the same, and the withdrawal succeeds again |
| Affiliate.AggregateThenThrows | graphql/resolvers.js:52-55 | as written, `getAffilateBalance` and `withdrawAffilateRewardDays` throw on every request and write nothing, while the intended balance is answered to every caller with a session |
| Affiliate.WithdrawDaysAsWrittenDiffers | graphql/resolvers.js:171-185 | where the intended days withdrawal succeeds, the handler as written throws with the collections unchanged |
| Webhook.FindInvoice | routes.js:21 | the first entry carrying the invoice id, none exactly when no entry has it |
| Webhook.NoInvoiceFails | routes.js:19-20 | no invoice from the processor gives 500 and no change |
| Webhook.UnknownInvoiceFails | routes.js:21 | no entry with the invoice id gives 500 and no change |
| Webhook.ReconcileEffect | routes.js:21-27 | the entry's status becomes the processor's; the subscription extends by `months*30` from the stored expiry or now iff not CONFIRMED becomes CONFIRMED, octets kept; else no subscription changes; 200 |
| Webhook.StatusNotOneWay | routes.js:21 | a CONFIRMED entry takes whatever status is reported next |
| Webhook.FindInvoiceSetStatus | routes.js:21 | updating a status does not change which entry an invoice id finds |
| Webhook.RedeliveryIsNoOp | routes.js:21-22 | the same CONFIRMED notification twice has the effect of once |
| Webhook.ConfirmAfterFallbackCreditsAgain | routes.js:21-25 | CONFIRMED, then another status, then CONFIRMED again credits the subscription a second time |
| Webhook.ConfirmationRewardsReferrer | routes.js:21-22 | the first confirmation of a referred top-up raises the referrer's balance by its reward |
| WireGuard.TemplatesAgree | vpn/config.js:21-30 | the production and development templates render the same text |
| WireGuard.SplitJoin | vpn/config.js:21-30 | splitting the rendered text at newlines gives back its lines when no line holds a newline |
| WireGuard.TemplateSplits | vpn/config.js:21-30 | the rendered text is exactly the ten template lines |
| WireGuard.TemplateFields | vpn/config.js:21-30 | reading the text back yields every field the template writes |
| WireGuard.ListenPortField | vpn/config.js:22 | `ListenPort` is always 51280 |
| WireGuard.PrivateKeyField | vpn/config.js:23 | `PrivateKey` is the caller's private key verbatim |
| WireGuard.AddressField | vpn/config.js:24 | `Address` is the server's address |
| WireGuard.DnsField | vpn/config.js:25 | `DNS` is the server field that `dnsType` names |
| WireGuard.PublicKeyField | vpn/config.js:28 | the peer `PublicKey` is the server's |
| WireGuard.AllowedIPsField | vpn/config.js:29 | `AllowedIPs` is always 0.0.0.0/0 |
| WireGuard.EndpointField | vpn/config.js:30 | `Endpoint` is the server IP and the given port when non-empty, else the server's port |
| WireGuard.DecimalRoundTrip | graphql/resolvers.js:189 | `toString()` of a char code is decimal digits denoting that code |
| WireGuard.ExitPortExample | graphql/resolvers.js:189 | "SE" as exit from "DE" gives port "8369"; the same country gives none |
| WireGuard.PortForInjective | graphql/resolvers.js:189 | two-capital-letter exit countries get different ports |
| WireGuard.Countries | graphql/resolvers.js:196 | the distinct server countries: no repeats, and the same set as the servers' |
| WireGuard.AppendExitFiles | graphql/resolvers.js:201-207 | the inner loop appends two files for each listed country other than the server's, in order |
| WireGuard.ConfigFiles | graphql/resolvers.js:196-208 | the nested loops add exactly `ZipEntries`: per server its two direct files, then its exit pairs |
| WireGuard.ZipEntriesCount | graphql/resolvers.js:198-208 | with distinct countries covering every server, `zip.file` is called `2 * servers * countries` times |
| WireGuard.ConfigFilesCount | graphql/resolvers.js:196-208 | the loops call `zip.file` `2 * servers * countries` times |
| WireGuard.DirectFilesNames | graphql/resolvers.js:199-200 | a server's direct files are `<c>.conf` and `<c> - AdBlock.conf` |
| WireGuard.ExitPairNames | graphql/resolvers.js:204-205 | an exit pair is `<c> - <x>.conf` and `<c> - <x> - AdBlock.conf` |
| WireGuard.ExitFilesNames | graphql/resolvers.js:201-207 | a server's exit file names are exactly those of the other listed countries |
| WireGuard.ZipEntriesNames | graphql/resolvers.js:198-208 | a name is used by some `zip.file` call iff it is a direct or exit name some server should have |
| WireGuard.ArchiveEntry | graphql/resolvers.js:199-205 | `zip.file` replaces a same-named entry: the archive holds a name iff some call used it, with the rendering of the last such call |
| WireGuard.ExitFilesKey | graphql/resolvers.js:204-205 | every exit file is rendered with the caller's private key |
| WireGuard.ZipEntriesKey | graphql/resolvers.js:199-205 | every file the loops add is rendered with the caller's private key |
| WireGuard.SharedCountryCalls | graphql/resolvers.js:196-208 | two servers in one country get only their direct files, no exit files |
| WireGuard.SharedCountryExample | graphql/resolvers.js:196-208 | two servers in one country make four calls but leave two files, and `SE.conf` renders the second server |
| Configs.FindServer | graphql/resolvers.js:188 | `findOne({country})`: the first server in that country, none exactly when there is none |
| Configs.PortForSingleLine | graphql/resolvers.js:189 | an exit port is never empty and has no newline |
| Configs.GetConfigRenders | graphql/resolvers.js:187-190 | the rendered config has the caller's private key, and its endpoint port is the exit country's code pair when it differs from the country, else the server's port |
| Configs.GetConfigFails | graphql/resolvers.js:187-188 | without a session or a server in the country, `getConfig` throws |
| Configs.AllConfigsContents | graphql/resolvers.js:194-209 | `zip.file` is called `2 * servers * countries` times; a name is in the archive iff some server should have it; each file is the last call under its name, rendered with the caller's private key |
| Store.Store.Authenticate | index.js:36-43 | the middleware sets `ctx.state.user` to the authenticated principal, or null |
| Store.Store.SignUp | graphql/resolvers.js:60-75 | the collections after `signUp` and its answer are `Accounts.SignUp`'s; the invariant holds |
| Store.Store.Login | graphql/resolvers.js:76-84 | `login` acts as `Accounts.Login`; the invariant holds |
| Store.Store.ChangePassword | graphql/resolvers.js:85-98 | `changePassword` acts as `Accounts.ChangePassword`; the invariant holds |
| Store.Store.DeleteAccount | graphql/resolvers.js:120-123 | `deleteAccount` acts as `Accounts.DeleteAccount`; the invariant holds |
| Store.Store.GetAffilateBalance | graphql/resolvers.js:52-56 | answers the intended `Affiliate.GetAffilateBalance`, which is the confirmed rewards under the caller's `ref` |
| Store.Store.GetInvoice | graphql/resolvers.js:124-152 | `getInvoice` acts as `Affiliate.GetInvoice`; the invariant holds |
| Store.Store.AddDaysToClient | graphql/resolvers.js:153-162 | `addDaysToClient` acts as `Affiliate.AddDaysToClient`; the invariant holds |
| Store.Store.WithdrawAffilateRewardBTC | graphql/resolvers.js:163-170 | `withdrawAffilateRewardBTC` acts as `Affiliate.WithdrawAffilateRewardBTC`; the invariant holds |
| Store.Store.WithdrawAffilateRewardDays | graphql/resolvers.js:171-185 | `withdrawAffilateRewardDays` acts as `Affiliate.WithdrawAffilateRewardDays`; the invariant holds |
| Store.Store.ReceiveNotification | routes.js:17-35 | the webhook's writes and status code are `Webhook.Reconcile`'s; the invariant holds |
| Store.Store.GetConfig | graphql/resolvers.js:186-192 | answers `Configs.GetConfig` without writing |
| Store.Store.GetAllConfigsZip | graphql/resolvers.js:193-210 | answers `Configs.AllConfigs`: the nested loops list the calls, and the archive keeps the last per name |

## Left out

- Password hashing and checking (argon2): the digest is a parameter and the
  check a function parameter.
- JSON web tokens: the signed session is its claims (`Claims`). The
  reset-token path of `changePassword` and `verifyResetPasswordToken`
  depends only on token verification, so it is not modelled.
- Key generation (curve25519), random tokens and new ObjectIds: parameters.
- Payment-processor calls (`create_invoice`, `get_invoice`, `get_rates`):
  their answers are parameters. `btcPrice` is not stored.
- Floating point. `Math.round(1e8*...)` amounts for rewards and BTC payouts
  arrive as integers. The days conversion is computed over exact reals.
- Store.Store.WithdrawAffilateRewardDays: requires a non-zero
  `MONTH_PRICE`. With zero, JavaScript yields an infinite or NaN day count,
  which an integer model cannot represent.
- Store.Store.SignUp: requires an id no user or subscription has, which is
  what MongoDB's ObjectId generation supplies.
- Each handler is one sequential step. Races between concurrent sign-ups
  over `octets`, and the webhook's subscription update that is not awaited,
  are not modelled.
- Dates are whole day counts. The calendar and time-zone behaviour of
  `setDate` is not modelled.
- `octets` is a number or absent. A stored value of any other kind is not
  modelled. The `isNaN` guard coerces such a value: a non-numeric string
  gives 1, while a numeric string passes the guard and `+ 1` concatenates
  onto it.
- The subscriptions collection is a map, so a client has at most one row.
  The handlers never create a second one.
- ObjectId parse errors of malformed ids are not modelled: an id either
  finds a user or finds none.
- `charCodeAt` is taken on Dafny characters rather than on UTF-16 code
  units. The two agree on every character of a country code.
- The base64 encoding of `getConfig`'s answer and the archive encoding of
  `getAllConfigsZIP` are not modelled. The model returns the configuration
  text, and the archive as a map from file name to rendering.
- Configs.AllConfigsContents: the number of files in the archive is not
  stated, only the number of `zip.file` calls. File names depend only on
  country strings, so servers that share a country repeat every name and
  the archive keeps fewer files than there are calls. The last server in
  the country supplies each such file, while `getConfig` renders the
  first. `WireGuard.SharedCountryExample` shows both for two servers in one
  country.
- WireGuard.ConfigFilesCount: counts `zip.file` calls, not archive files,
  for the reason above.
- Store.Store.GetAffilateBalance, Store.Store.WithdrawAffilateRewardDays,
  Affiliate.WithdrawDaysExtends: these model the intended `$sum` balances.
  As written, graphql/resolvers.js:53 and :172 call `then` on the cursor
  that `aggregate` returns. That throws a TypeError before any other read
  or write, so `getAffilateBalance` never answers and
  `withdrawAffilateRewardDays` always fails with nothing written. The
  as-written handlers are `Affiliate.GetAffilateBalanceAsWritten` and
  `Affiliate.WithdrawAffilateRewardDaysAsWritten` (see "## Findings"). If
  `aggregate` resolved to its documents, `.rewarded` would read a field off
  an array, and a `$group` over no matching entry emits no document. Both
  are outside the model.
- The top-up's constant `currency: 'EUR'` field (graphql/resolvers.js:140)
  is not stored in `Ledger.Payment.TopUp`. No modelled handler reads it.
- The servers collection is a parameter that no handler writes.
- `changeEmail`, `resetPassword` (SendGrid email), `getUser`, `getIPInfo`,
  `getExpTime`, `getRate` and `getInvoices` are not modelled: they are
  single reads or writes outside this core.
- The GraphQL schema (graphql/types.js), the `Date` scalar, routing, server
  start-up and the environment-variable parsing of vpn/config.js are not
  modelled.

## Findings

| source | as written | input that shows it | evidently intended | confidence | as-written member | corrected member |
|---|---|---|---|---|---|---|
| graphql/resolvers.js:53-54 | `aggregate(...).then(res => res.rewarded)`: the MongoDB 3.x driver that `client.db()` (index.js:48) and `res.ops` (graphql/resolvers.js:71) imply answers a cursor without `then`, so the handler throws | any request with a session | answer the confirmed rewards under the caller's `ref` minus the withdrawn sum | medium, not executed; rests on the driver version | Affiliate.AggregateThenThrows | Affiliate.BalanceIsConfirmedRewards |
| graphql/resolvers.js:172-173 | the same `then` on the cursor throws before the days are converted | a caller whose confirmed rewards give at least one day | extend the caller's subscription by the converted days and record the balance as withdrawn | medium, not executed; rests on the driver version | Affiliate.WithdrawDaysAsWrittenDiffers | Affiliate.WithdrawDaysExtends |

=== FILE: accounts.dfy ===
/**
 * The identity side of the GraphQL mutations (graphql/resolvers.js) and the
 * session check that runs before every request (index.js): sign-up, login,
 * password change, account deletion, and the login-token membership test.
 */
module Accounts {
  import opened Common
  import opened Dates
  import opened Ledger

  /**
   * What sign-up obtains from outside the store: the argon2 digest of the
   * password, a random login token, a curve25519 keypair and the ObjectId
   * MongoDB gives the new user.
   */
  datatype SignUpIssued = SignUpIssued(hash: Hash, token: Token, privateKey: Key, publicKey: Key, id: UserId)

  /** `signUp`: refuse a taken username, else insert the user and a trial subscription. */
  function SignUp(db: Db, cfg: Config, username: string, email: Option<string>, ref: Option<UserId>,
                  issued: SignUpIssued, now: Date): Step<Claims>
  {
    if FindUser(db.users, ByName(username)).Some? then Step(db, Err(UserExists))
    else
      var octets := Some(NextOctets(db.users));
      var user := User(issued.id, username, issued.hash, email, ref, [issued.token],
                       issued.publicKey, issued.privateKey, 0, octets, now);
      var trial := Subscription(issued.publicKey, AddDays(now, cfg.trialDays), octets);
      Step(Db(db.users + [user], db.subscriptions[issued.id := trial], db.payments),
           Ok(Claims(issued.id, issued.token)))
  }

  /** `argon2.verify(digest, password)`, supplied by the caller. */
  type Verifier = (Hash, string) -> bool

  /** `login`: check the password, then push one new token onto the user's list. */
  function Login(db: Db, username: string, password: string, verify: Verifier, token: Token): Step<Claims>
  {
    match FindUser(db.users, ByName(username))
    case None => Step(db, Err(Unauthorized))
    case Some(i) =>
      var user := db.users[i];
      if !verify(user.password, password) then Step(db, Err(Unauthorized))
      else
        var users := db.users[i := user.(loginTokens := user.loginTokens + [token])];
        Step(db.(users := users), Ok(Claims(user.id, token)))
  }

  /**
   * `changePassword` for a signed-in caller: set the new digest and reset the
   * token list to the single issued token. When no user has the caller's id
   * the update matches nothing, yet a session is still issued.
   */
  function ChangePassword(db: Db, principal: Option<Claims>, hash: Hash, token: Token): Step<Claims>
  {
    if principal.None? then Step(db, Err(NoPrincipal))
    else
      var id := principal.value.id;
      match FindUser(db.users, ById(id))
      case None => Step(db, Ok(Claims(id, token)))
      case Some(i) =>
        var users := db.users[i := db.users[i].(password := hash, loginTokens := [token])];
        Step(db.(users := users), Ok(Claims(id, token)))
  }

  /** `deleteAccount`: remove the caller's user document; nothing else. */
  function DeleteAccount(db: Db, principal: Option<Claims>): Step<string>
  {
    if principal.None? then Step(db, Err(NoPrincipal))
    else match FindUser(db.users, ById(principal.value.id))
      case None => Step(db, Ok("ok"))
      case Some(i) => Step(db.(users := db.users[..i] + db.users[i + 1..]), Ok("ok"))
  }

  /** Some user with the claimed id lists the claimed token among its `loginTokens`. */
  predicate HoldsToken(users: seq<User>, c: Claims) {
    exists i :: 0 <= i < |users| && users[i].id == c.id && c.token in users[i].loginTokens
  }

  /**
   * The middleware after JWT decoding: a request whose token the user no
   * longer holds becomes anonymous; it is never rejected.
   */
  function Authenticate(users: seq<User>, principal: Option<Claims>): Option<Claims> {
    if principal.Some? && !HoldsToken(users, principal.value) then None else principal
  }

  // ---------------------------------------------------------------------
  // Properties

  lemma SignUpTakenUsername(db: Db, cfg: Config, username: string, email: Option<string>,
                            ref: Option<UserId>, issued: SignUpIssued, now: Date, k: nat)
    requires k < |db.users| && db.users[k].username == username
    ensures SignUp(db, cfg, username, email, ref, issued, now) == Step(db, Err(UserExists))
  {
    assert Selects(db.users[k], ByName(username));
  }

  lemma SignUpInserts(db: Db, cfg: Config, username: string, email: Option<string>,
                      ref: Option<UserId>, issued: SignUpIssued, now: Date)
    requires Valid(db) && FreshId(db, issued.id)
    requires forall k :: 0 <= k < |db.users| ==> db.users[k].username != username
    ensures var s := SignUp(db, cfg, username, email, ref, issued, now);
      && s.result == Ok(Claims(issued.id, issued.token))
      && Valid(s.db)
      && |s.db.users| == |db.users| + 1
      && s.db.users[..|db.users|] == db.users
      && var u := s.db.users[|db.users|];
      && u.id == issued.id && u.username == username && u.loginTokens == [issued.token]
      && u.ref == ref && u.email == email && u.password == issued.hash
      && u.publicKey == issued.publicKey && u.privateKey == issued.privateKey
      && u.withdrawedSatoshis == 0 && u.createdAt == now
      && s.db.payments == db.payments
  {
    assert FindUser(db.users, ByName(username)).None?;
    SignUpKeepsValid(db, cfg, username, email, ref, issued, now);
  }

  /**
   * The new user's `octets` is one above the highest numeric value so far,
   * whatever its sign (1 when there is none), so it clashes with no
   * existing user's.
   */
  lemma SignUpOctets(db: Db, cfg: Config, username: string, email: Option<string>,
                     ref: Option<UserId>, issued: SignUpIssued, now: Date)
    requires forall k :: 0 <= k < |db.users| ==> db.users[k].username != username
    ensures var s := SignUp(db, cfg, username, email, ref, issued, now);
      && |s.db.users| == |db.users| + 1
      && var o := s.db.users[|db.users|].octets;
      && o.Some?
      && (forall k :: 0 <= k < |db.users| && db.users[k].octets.Some? ==> db.users[k].octets.value < o.value)
      && ((forall k :: 0 <= k < |db.users| ==> db.users[k].octets.None?) ==> o.value == 1)
      && ((exists k :: 0 <= k < |db.users| && db.users[k].octets.Some?) ==>
            exists k :: 0 <= k < |db.users| && db.users[k].octets == Some(o.value - 1))
  {
    assert FindUser(db.users, ByName(username)).None?;
  }

  /** Sign-up opens a trial subscription of `TRIAL_DAYS` from now and touches no other. */
  lemma SignUpTrial(db: Db, cfg: Config, username: string, email: Option<string>,
                    ref: Option<UserId>, issued: SignUpIssued, now: Date)
    requires forall k :: 0 <= k < |db.users| ==> db.users[k].username != username
    ensures var s := SignUp(db, cfg, username, email, ref, issued, now);
      && |s.db.users| == |db.users| + 1
      && var u := s.db.users[|db.users|];
      && s.db.subscriptions.Keys == db.subscriptions.Keys + {issued.id}
      && s.db.subscriptions[issued.id] == Subscription(u.publicKey, now + cfg.trialDays, u.octets)
      && (forall c :: c in db.subscriptions && c != issued.id ==> s.db.subscriptions[c] == db.subscriptions[c])
  {
    assert FindUser(db.users, ByName(username)).None?;
  }

  /** A successful sign-up keeps ids, usernames and octets distinct. */
  lemma SignUpKeepsValid(db: Db, cfg: Config, username: string, email: Option<string>,
                         ref: Option<UserId>, issued: SignUpIssued, now: Date)
    requires Valid(db) && FreshId(db, issued.id)
    requires forall k :: 0 <= k < |db.users| ==> db.users[k].username != username
    ensures Valid(SignUp(db, cfg, username, email, ref, issued, now).db)
  {
    var s := SignUp(db, cfg, username, email, ref, issued, now);
    assert FindUser(db.users, ByName(username)).None?;
    var n := |db.users|;
    forall i, j | 0 <= i < j < |s.db.users|
      ensures && s.db.users[i].id != s.db.users[j].id
              && s.db.users[i].username != s.db.users[j].username
              && (s.db.users[i].octets.Some? ==> s.db.users[i].octets != s.db.users[j].octets)
    {
      if j == n {
        assert s.db.users[i] == db.users[i];
      }
    }
  }

  lemma LoginRejects(db: Db, username: string, password: string, verify: Verifier, token: Token)
    requires forall k :: 0 <= k < |db.users| && db.users[k].username == username ==>
               !verify(db.users[k].password, password)
    ensures Login(db, username, password, verify, token) == Step(db, Err(Unauthorized))
  {
  }

  lemma LoginAppendsToken(db: Db, username: string, password: string, verify: Verifier, token: Token, k: nat)
    requires Valid(db)
    requires k < |db.users| && db.users[k].username == username
    requires verify(db.users[k].password, password)
    ensures var s := Login(db, username, password, verify, token);
      && s.result == Ok(Claims(db.users[k].id, token))
      && Valid(s.db)
      && |s.db.users| == |db.users|
      && s.db.users[k].loginTokens == db.users[k].loginTokens + [token]
      && s.db.users[k] == db.users[k].(loginTokens := s.db.users[k].loginTokens)
      && (forall j :: 0 <= j < |db.users| && j != k ==> s.db.users[j] == db.users[j])
      && s.db.subscriptions == db.subscriptions && s.db.payments == db.payments
  {
    FindUserAt(db, ByName(username), k);
  }

  /** Logging in keeps every earlier session valid and validates the new one. */
  lemma LoginKeepsSessions(db: Db, username: string, password: string, verify: Verifier, token: Token, c: Claims)
    requires HoldsToken(db.users, c)
    ensures var s := Login(db, username, password, verify, token);
      && HoldsToken(s.db.users, c)
      && (s.result.Ok? ==> HoldsToken(s.db.users, s.result.value))
  {
    var s := Login(db, username, password, verify, token);
    var i :| 0 <= i < |db.users| && db.users[i].id == c.id && c.token in db.users[i].loginTokens;
    assert s.db.users[i].id == c.id && c.token in s.db.users[i].loginTokens;
    if s.result.Ok? {
      var k := FindUser(db.users, ByName(username)).value;
      assert s.db.users[k].id == s.result.value.id && token in s.db.users[k].loginTokens;
    }
  }

  lemma ChangePasswordResetsTokens(db: Db, c: Claims, hash: Hash, token: Token, k: nat)
    requires Valid(db)
    requires k < |db.users| && db.users[k].id == c.id
    ensures var s := ChangePassword(db, Some(c), hash, token);
      && s.result == Ok(Claims(c.id, token))
      && Valid(s.db)
      && |s.db.users| == |db.users|
      && s.db.users[k] == db.users[k].(password := hash, loginTokens := [token])
      && (forall j :: 0 <= j < |db.users| && j != k ==> s.db.users[j] == db.users[j])
      && s.db.subscriptions == db.subscriptions && s.db.payments == db.payments
  {
    FindUserAt(db, ById(c.id), k);
  }

  /** After a password change the only session of that user is the new one. */
  lemma ChangePasswordRevokesSessions(db: Db, c: Claims, hash: Hash, token: Token, k: nat, other: Token)
    requires Valid(db)
    requires k < |db.users| && db.users[k].id == c.id
    ensures var s := ChangePassword(db, Some(c), hash, token);
      HoldsToken(s.db.users, Claims(c.id, other)) <==> other == token
  {
    ChangePasswordResetsTokens(db, c, hash, token, k);
    var s := ChangePassword(db, Some(c), hash, token);
    if HoldsToken(s.db.users, Claims(c.id, other)) {
      var i :| 0 <= i < |s.db.users| && s.db.users[i].id == c.id && other in s.db.users[i].loginTokens;
      assert i == k;
    } else {
      assert s.db.users[k].id == c.id;
    }
  }

  lemma ChangePasswordUnknownUser(db: Db, c: Claims, hash: Hash, token: Token)
    requires forall k :: 0 <= k < |db.users| ==> db.users[k].id != c.id
    ensures ChangePassword(db, Some(c), hash, token) == Step(db, Ok(Claims(c.id, token)))
  {
  }

  lemma DeleteAccountRemoves(db: Db, c: Claims, k: nat)
    requires Valid(db)
    requires k < |db.users| && db.users[k].id == c.id
    ensures var s := DeleteAccount(db, Some(c));
      && s.result == Ok("ok")
      && Valid(s.db)
      && s.db.users == db.users[..k] + db.users[k + 1..]
      && (forall j :: 0 <= j < |s.db.users| ==> s.db.users[j].id != c.id)
      && (forall j :: 0 <= j < |s.db.users| ==> s.db.users[j].username != db.users[k].username)
      && s.db.subscriptions == db.subscriptions && s.db.payments == db.payments
  {
    FindUserAt(db, ById(c.id), k);
    var users := db.users[..k] + db.users[k + 1..];
    forall j | 0 <= j < |users|
      ensures users[j] == db.users[if j < k then j else j + 1]
    {
    }
  }

  /** Once the account is gone, none of its sessions authenticates. */
  lemma DeleteAccountRevokesSessions(db: Db, c: Claims, k: nat, t: Token)
    requires Valid(db)
    requires k < |db.users| && db.users[k].id == c.id
    ensures Authenticate(DeleteAccount(db, Some(c)).db.users, Some(Claims(c.id, t))).None?
  {
    DeleteAccountRemoves(db, c, k);
  }

  lemma AuthenticateKeeps(users: seq<User>, c: Claims, k: nat)
    requires k < |users| && users[k].id == c.id && c.token in users[k].loginTokens
    ensures Authenticate(users, Some(c)) == Some(c)
  {
  }

  lemma AuthenticateDowngrades(users: seq<User>, c: Claims)
    requires forall k :: 0 <= k < |users| && users[k].id == c.id ==> c.token !in users[k].loginTokens
    ensures Authenticate(users, Some(c)) == None
  {
  }

  lemma AuthenticateAnonymous(users: seq<User>)
    ensures Authenticate(users, None) == None
  {
  }
}

=== FILE: affiliate.dfy ===
/**
 * The payment-ledger side of the GraphQL resolvers (graphql/resolvers.js):
 * the affiliate balance aggregations, invoice creation, the admin grant of
 * days, and the two affiliate withdrawals.
 */
module Affiliate {
  import opened Common
  import opened Dates
  import opened Ledger

  /** The numeric field a `$group` stage sums. */
  datatype Field = Rewarded | Withdrawed

  /** A `$match` stage: `ref` always, `status` and `type` when present. */
  datatype Match = Match(ref: UserId, status: Option<string>, entryType: Option<string>)

  predicate Matches(p: Payment, m: Match) {
    && p.Ref() == Some(m.ref)
    && (m.status.None? || p.status == m.status.value)
    && (m.entryType.None? || p.Type() == m.entryType.value)
  }

  /** The field's value; `$sum` ignores a document lacking it, as if it were 0. */
  function FieldOf(p: Payment, f: Field): int {
    match f
    case Rewarded => if p.TopUp? then p.affilateRewardedSatoshis else 0
    case Withdrawed => if p.Withdrawal? then p.affilateWithdrawedSatoshis else 0
  }

  /** What one entry adds to a sum. */
  function Contribution(p: Payment, m: Match, f: Field): int {
    if Matches(p, m) then FieldOf(p, f) else 0
  }

  /** `aggregate([{$match: m}, {$group: {_id: null, x: {$sum: '$f'}}}])`. */
  function Sum(ps: seq<Payment>, m: Match, f: Field): int {
    if ps == [] then 0
    else Sum(ps[..|ps| - 1], m, f) + Contribution(ps[|ps| - 1], m, f)
  }

  /** `getAffilateBalance`: confirmed rewards of any type, minus all withdrawn amounts, under `ref`. */
  function AffilateBalance(ps: seq<Payment>, u: UserId): int {
    Sum(ps, Match(u, Some(CONFIRMED), None), Rewarded) - Sum(ps, Match(u, None, None), Withdrawed)
  }

  /** The balance `withdrawAffilateRewardDays` computes: top-up rewards minus 'AFFILATE_WITHDRAWAL' debits. */
  function WithdrawableBalance(ps: seq<Payment>, u: UserId): int {
    Sum(ps, Match(u, Some(CONFIRMED), Some(TOP_UP)), Rewarded)
      - Sum(ps, Match(u, None, Some(AFFILATE_WITHDRAWAL)), Withdrawed)
  }

  /** `Math.round`: halves go up. */
  function Round(x: real): int {
    (x + 0.5).Floor
  }

  /**
   * `Math.round(30*balance/(1e8*MONTH_PRICE/rate))` over exact reals. A zero
   * rate makes the divisor infinite, and a finite balance over it rounds to 0.
   */
  function WithdrawalDays(balance: int, rate: real, monthPrice: int): int
    requires monthPrice != 0
  {
    if rate == 0.0 then 0
    else Round(30.0 * (balance as real) / (100000000.0 * (monthPrice as real) / rate))
  }

  /** `getAffilateBalance` for the requesting user. */
  function GetAffilateBalance(db: Db, principal: Option<Claims>): Result<int, Error> {
    if principal.None? then Err(NoPrincipal)
    else Ok(AffilateBalance(db.payments, principal.value.id))
  }

  /**
   * `getAffilateBalance` as written: `aggregate` answers a cursor, which has
   * no `then`, so the handler throws once the caller's id has been read.
   */
  function GetAffilateBalanceAsWritten(db: Db, principal: Option<Claims>): Result<int, Error> {
    if principal.None? then Err(NoPrincipal) else Err(AggregateNotThenable)
  }

  /** What `btc.create_invoice` answers. */
  datatype CreatedInvoice = CreatedInvoice(id: InvoiceId, url: string, invoiceTime: Date, expirationTime: Date)

  /**
   * `getInvoice`: record an UNCONFIRMED top-up for the caller, carrying the
   * caller's `ref`, and return the processor's URL. `reward` is the already
   * rounded `Math.round(1e8*btcPrice*AFFILATE_FEE)`.
   */
  function GetInvoice(db: Db, cfg: Config, principal: Option<Claims>, months: int, paymentType: string,
                      invoice: CreatedInvoice, reward: int): Step<string>
  {
    if principal.None? then Step(db, Err(NoPrincipal))
    else
      var id := principal.value.id;
      match FindUser(db.users, ById(id))
      case None => Step(db, Err(NoSuchDocument))
      case Some(i) =>
        var user := db.users[i];
        var entry := TopUp(id, user.publicKey, months, cfg.monthPrice * months, paymentType,
                           invoice.url, invoice.id, UNCONFIRMED, invoice.invoiceTime,
                           invoice.expirationTime, user.ref, reward);
        Step(db.(payments := db.payments + [entry]), Ok(invoice.url))
  }

  /** `addDaysToClient`: an admin extends a client's subscription by `days`. */
  function AddDaysToClient(db: Db, cfg: Config, principal: Option<Claims>, days: int, clientId: UserId,
                           now: Date): Step<string>
  {
    if principal.None? then Step(db, Err(NoPrincipal))
    else if principal.value.id !in cfg.adminIds then Step(db, Err(NotAdmin))
    else match FindUser(db.users, ById(clientId))
      case None => Step(db, Err(NoSuchDocument))
      case Some(i) =>
        var user := db.users[i];
        var row := ExtendedRow(db.subscriptions, clientId, days, now, user.publicKey, user.octets);
        Step(db.(subscriptions := db.subscriptions[clientId := row]), Ok("ok"))
  }

  /**
   * `withdrawAffilateRewardBTC`: an admin records a CONFIRMED BTC payout of
   * `satoshis` (the rounded `Math.round(1e8*btc)`) to `clientId`.
   */
  function WithdrawAffilateRewardBTC(db: Db, cfg: Config, principal: Option<Claims>, satoshis: int,
                                     clientId: UserId): Step<string>
  {
    if principal.None? then Step(db, Err(NoPrincipal))
    else if principal.value.id !in cfg.adminIds then Step(db, Err(NotAdmin))
    else
      var entry := Withdrawal(clientId, satoshis, CONFIRMED, AFFILATE_WITHDRAWAL_BTC);
      Step(db.(payments := db.payments + [entry]), Ok("ok"))
  }

  /**
   * `withdrawAffilateRewardDays`: convert the caller's balance at `rate`
   * (EUR per BTC) into days, extend the caller's subscription by them and
   * record the whole balance as withdrawn.
   */
  function WithdrawAffilateRewardDays(db: Db, cfg: Config, principal: Option<Claims>, rate: real,
                                      now: Date): Step<string>
    requires cfg.monthPrice != 0
  {
    if principal.None? then Step(db, Err(NoPrincipal))
    else
      var id := principal.value.id;
      var balance := WithdrawableBalance(db.payments, id);
      var days := WithdrawalDays(balance, rate, cfg.monthPrice);
      if days < 1 then Step(db, Err(ErrowNotDefined))
      else match FindUser(db.users, ById(id))
        case None => Step(db, Err(NoSuchDocument))
        case Some(i) =>
          var user := db.users[i];
          var row := ExtendedRow(db.subscriptions, id, days, now, user.publicKey, user.octets);
          var entry := Withdrawal(id, balance, CONFIRMED, AFFILATE_WITHDRAWAL_DAYS);
          Step(db.(subscriptions := db.subscriptions[id := row], payments := db.payments + [entry]), Ok("ok"))
  }

  /**
   * `withdrawAffilateRewardDays` as written: its first balance read calls
   * `then` on an aggregation cursor and throws before any write.
   */
  function WithdrawAffilateRewardDaysAsWritten(db: Db, principal: Option<Claims>): Step<string> {
    if principal.None? then Step(db, Err(NoPrincipal)) else Step(db, Err(AggregateNotThenable))
  }

  // ---------------------------------------------------------------------
  // Properties of the aggregations

  lemma SumAppend(ps: seq<Payment>, p: Payment, m: Match, f: Field)
    ensures Sum(ps + [p], m, f) == Sum(ps, m, f) + Contribution(p, m, f)
  {
    assert (ps + [p])[..|ps|] == ps;
  }

  /** No document both carries a `ref` and a withdrawn amount: every withdrawal sum is 0. */
  lemma {:induction false} WithdrawedSumIsZero(ps: seq<Payment>, m: Match)
    ensures Sum(ps, m, Withdrawed) == 0
  {
    if ps != [] {
      WithdrawedSumIsZero(ps[..|ps| - 1], m);
    }
  }

  /** Only top-ups carry a `ref`, so a `type: 'TOP_UP'` filter changes no reward sum. */
  lemma {:induction false} RewardSumIgnoresType(ps: seq<Payment>, u: UserId, status: Option<string>)
    ensures Sum(ps, Match(u, status, None), Rewarded) == Sum(ps, Match(u, status, Some(TOP_UP)), Rewarded)
  {
    if ps != [] {
      RewardSumIgnoresType(ps[..|ps| - 1], u, status);
    }
  }

  /**
   * Both balance computations reduce to the confirmed rewards of the top-ups
   * the user referred: withdrawals never count against them.
   */
  lemma BalanceIsConfirmedRewards(ps: seq<Payment>, u: UserId)
    ensures AffilateBalance(ps, u) == Sum(ps, Match(u, Some(CONFIRMED), Some(TOP_UP)), Rewarded)
    ensures WithdrawableBalance(ps, u) == AffilateBalance(ps, u)
  {
    WithdrawedSumIsZero(ps, Match(u, None, None));
    WithdrawedSumIsZero(ps, Match(u, None, Some(AFFILATE_WITHDRAWAL)));
    RewardSumIgnoresType(ps, u, Some(CONFIRMED));
  }

  /** Recording a withdrawal of any kind and amount leaves every balance as it was. */
  lemma WithdrawalKeepsBalance(ps: seq<Payment>, w: Payment, u: UserId)
    requires w.Withdrawal?
    ensures AffilateBalance(ps + [w], u) == AffilateBalance(ps, u)
    ensures WithdrawableBalance(ps + [w], u) == WithdrawableBalance(ps, u)
  {
    BalanceIsConfirmedRewards(ps, u);
    BalanceIsConfirmedRewards(ps + [w], u);
    SumAppend(ps, w, Match(u, Some(CONFIRMED), Some(TOP_UP)), Rewarded);
  }

  /** An unconfirmed entry adds nothing to any balance. */
  lemma UnconfirmedKeepsBalance(ps: seq<Payment>, p: Payment, u: UserId)
    requires p.status != CONFIRMED
    ensures AffilateBalance(ps + [p], u) == AffilateBalance(ps, u)
  {
    BalanceIsConfirmedRewards(ps, u);
    BalanceIsConfirmedRewards(ps + [p], u);
    SumAppend(ps, p, Match(u, Some(CONFIRMED), Some(TOP_UP)), Rewarded);
  }

  /** Changing the status of one entry changes a sum by that entry's contribution only. */
  lemma {:induction false} SumSetStatus(ps: seq<Payment>, i: nat, status: string, m: Match, f: Field)
    requires i < |ps|
    ensures Sum(ps[i := ps[i].WithStatus(status)], m, f)
         == Sum(ps, m, f) - Contribution(ps[i], m, f) + Contribution(ps[i].WithStatus(status), m, f)
  {
    var qs := ps[i := ps[i].WithStatus(status)];
    var n := |ps| - 1;
    if i == n {
      assert qs[..n] == ps[..n];
    } else {
      assert qs[..n] == ps[..n][i := ps[i].WithStatus(status)];
      SumSetStatus(ps[..n], i, status, m, f);
    }
  }

  /** Confirming a top-up raises its referrer's balance by its reward, once. */
  lemma ConfirmRaisesBalance(ps: seq<Payment>, i: nat, u: UserId)
    requires i < |ps| && ps[i].TopUp? && ps[i].ref == Some(u) && ps[i].status != CONFIRMED
    ensures AffilateBalance(ps[i := ps[i].WithStatus(CONFIRMED)], u)
         == AffilateBalance(ps, u) + ps[i].affilateRewardedSatoshis
  {
    var qs := ps[i := ps[i].WithStatus(CONFIRMED)];
    SumSetStatus(ps, i, CONFIRMED, Match(u, Some(CONFIRMED), None), Rewarded);
    WithdrawedSumIsZero(ps, Match(u, None, None));
    WithdrawedSumIsZero(qs, Match(u, None, None));
  }

  // ---------------------------------------------------------------------
  // Properties of the day conversion

  /** A zero or negative balance never converts to a whole day. */
  lemma NoDaysWithoutBalance(balance: int, rate: real, monthPrice: int)
    requires rate >= 0.0 && monthPrice > 0
    requires balance <= 0
    ensures WithdrawalDays(balance, rate, monthPrice) < 1
  {
    if rate == 0.0 {
      return;
    }
    var d := 100000000.0 * (monthPrice as real) / rate;
    assert d > 0.0;
    var x := 30.0 * (balance as real) / d;
    assert 30.0 * (balance as real) <= 0.0;
    assert x <= 0.0;
  }

  /** 0.5 BTC at 30000 EUR/BTC and 5 EUR a month buys 90000 days. */
  lemma WithdrawalDaysExample()
    ensures WithdrawalDays(50000000, 30000.0, 5) == 90000
  {
    assert 100000000.0 * 5.0 / 30000.0 == 50000.0 / 3.0;
    assert 30.0 * 50000000.0 / (50000.0 / 3.0) == 90000.0;
  }

  // ---------------------------------------------------------------------
  // Properties of the resolvers

  lemma GetInvoiceRecordsTopUp(db: Db, cfg: Config, c: Claims, months: int, paymentType: string,
                               invoice: CreatedInvoice, reward: int, k: nat)
    requires k < |db.users| && db.users[k].id == c.id
    requires forall j :: 0 <= j < k ==> db.users[j].id != c.id
    ensures var s := GetInvoice(db, cfg, Some(c), months, paymentType, invoice, reward);
      && s.result == Ok(invoice.url)
      && |s.db.payments| == |db.payments| + 1
      && s.db.payments[..|db.payments|] == db.payments
      && var e := s.db.payments[|db.payments|];
      && e.TopUp? && e.Type() == TOP_UP && e.status == UNCONFIRMED
      && e.price == cfg.monthPrice * months && e.months == months
      && e.clientId == c.id && e.ref == db.users[k].ref && e.publicKey == db.users[k].publicKey
      && e.invoiceId == invoice.id && e.affilateRewardedSatoshis == reward
      && e.paymentType == paymentType && e.invoiceUrl == invoice.url
      && e.createdAt == invoice.invoiceTime && e.expirationTime == invoice.expirationTime
      && s.db.users == db.users && s.db.subscriptions == db.subscriptions
      && (forall u :: AffilateBalance(s.db.payments, u) == AffilateBalance(db.payments, u))
  {
    var s := GetInvoice(db, cfg, Some(c), months, paymentType, invoice, reward);
    assert Selects(db.users[k], ById(c.id));
    assert s.db.payments == db.payments + [s.db.payments[|db.payments|]];
    forall u {
      UnconfirmedKeepsBalance(db.payments, s.db.payments[|db.payments|], u);
    }
  }

  lemma GetInvoiceNeedsUser(db: Db, cfg: Config, principal: Option<Claims>, months: int, paymentType: string,
                            invoice: CreatedInvoice, reward: int)
    requires principal.Some? ==> forall j :: 0 <= j < |db.users| ==> db.users[j].id != principal.value.id
    ensures GetInvoice(db, cfg, principal, months, paymentType, invoice, reward).db == db
    ensures GetInvoice(db, cfg, principal, months, paymentType, invoice, reward).result.Err?
  {
  }

  /** Only an admin may grant days; anyone else changes nothing. */
  lemma AddDaysToClientRefusesNonAdmin(db: Db, cfg: Config, principal: Option<Claims>, days: int,
                                       clientId: UserId, now: Date)
    requires principal.None? || principal.value.id !in cfg.adminIds
    ensures AddDaysToClient(db, cfg, principal, days, clientId, now).db == db
    ensures AddDaysToClient(db, cfg, principal, days, clientId, now).result.Err?
  {
  }

  /**
   * An admin grant moves the client's expiry `days` past the stored one, even
   * when that is already in the past, or past `now` when there is no row; it
   * copies the user's key and octets and touches nothing else.
   */
  lemma AddDaysToClientExtends(db: Db, cfg: Config, c: Claims, days: int, clientId: UserId, now: Date, k: nat)
    requires c.id in cfg.adminIds
    requires k < |db.users| && db.users[k].id == clientId
    requires forall j :: 0 <= j < k ==> db.users[j].id != clientId
    ensures var s := AddDaysToClient(db, cfg, Some(c), days, clientId, now);
      && s.result == Ok("ok")
      && s.db.users == db.users && s.db.payments == db.payments
      && s.db.subscriptions.Keys == db.subscriptions.Keys + {clientId}
      && (forall other :: other in db.subscriptions && other != clientId ==>
            s.db.subscriptions[other] == db.subscriptions[other])
      && s.db.subscriptions[clientId].publicKey == db.users[k].publicKey
      && s.db.subscriptions[clientId].octets == db.users[k].octets
      && (clientId in db.subscriptions ==>
            s.db.subscriptions[clientId].expireAt == db.subscriptions[clientId].expireAt + days)
      && (clientId !in db.subscriptions ==> s.db.subscriptions[clientId].expireAt == now + days)
  {
    assert Selects(db.users[k], ById(clientId));
  }

  lemma WithdrawBTCRefusesNonAdmin(db: Db, cfg: Config, principal: Option<Claims>, satoshis: int, clientId: UserId)
    requires principal.None? || principal.value.id !in cfg.adminIds
    ensures WithdrawAffilateRewardBTC(db, cfg, principal, satoshis, clientId).db == db
    ensures WithdrawAffilateRewardBTC(db, cfg, principal, satoshis, clientId).result.Err?
  {
  }

  /**
   * An admin BTC payout records exactly one CONFIRMED entry for any amount,
   * whatever the client's balance, and the balance does not move.
   */
  lemma WithdrawBTCRecords(db: Db, cfg: Config, c: Claims, satoshis: int, clientId: UserId)
    requires c.id in cfg.adminIds
    ensures var s := WithdrawAffilateRewardBTC(db, cfg, Some(c), satoshis, clientId);
      && s.result == Ok("ok")
      && s.db.payments == db.payments + [Withdrawal(clientId, satoshis, CONFIRMED, AFFILATE_WITHDRAWAL_BTC)]
      && s.db.users == db.users && s.db.subscriptions == db.subscriptions
      && AffilateBalance(s.db.payments, clientId) == AffilateBalance(db.payments, clientId)
  {
    WithdrawalKeepsBalance(db.payments, Withdrawal(clientId, satoshis, CONFIRMED, AFFILATE_WITHDRAWAL_BTC), clientId);
  }

  /** Less than one day's worth of balance: the resolver throws before writing anything. */
  lemma WithdrawDaysInsufficient(db: Db, cfg: Config, c: Claims, rate: real, now: Date)
    requires cfg.monthPrice != 0
    requires WithdrawalDays(AffilateBalance(db.payments, c.id), rate, cfg.monthPrice) < 1
    ensures WithdrawAffilateRewardDays(db, cfg, Some(c), rate, now) == Step(db, Err(ErrowNotDefined))
  {
    BalanceIsConfirmedRewards(db.payments, c.id);
  }

  /**
   * A days withdrawal extends the caller's own subscription by exactly the
   * converted days, copying the caller's key and `octets` into the row, and
   * records the full balance as withdrawn; the recorded
   * debit leaves the balance where it was, so the same withdrawal succeeds
   * again.
   */
  lemma WithdrawDaysExtends(db: Db, cfg: Config, c: Claims, rate: real, now: Date, k: nat)
    requires cfg.monthPrice != 0
    requires k < |db.users| && db.users[k].id == c.id
    requires forall j :: 0 <= j < k ==> db.users[j].id != c.id
    requires WithdrawalDays(AffilateBalance(db.payments, c.id), rate, cfg.monthPrice) >= 1
    ensures var balance := AffilateBalance(db.payments, c.id);
      var days := WithdrawalDays(balance, rate, cfg.monthPrice);
      var s := WithdrawAffilateRewardDays(db, cfg, Some(c), rate, now);
      && s.result == Ok("ok")
      && s.db.users == db.users
      && s.db.payments == db.payments + [Withdrawal(c.id, balance, CONFIRMED, AFFILATE_WITHDRAWAL_DAYS)]
      && s.db.subscriptions == db.subscriptions[c.id := s.db.subscriptions[c.id]]
      && s.db.subscriptions[c.id].expireAt == ExtensionBase(db.subscriptions, c.id, now) + days
      && s.db.subscriptions[c.id].publicKey == db.users[k].publicKey
      && s.db.subscriptions[c.id].octets == db.users[k].octets
      && AffilateBalance(s.db.payments, c.id) == balance
      && WithdrawAffilateRewardDays(s.db, cfg, Some(c), rate, now).result == Ok("ok")
  {
    BalanceIsConfirmedRewards(db.payments, c.id);
    assert Selects(db.users[k], ById(c.id));
    var s := WithdrawAffilateRewardDays(db, cfg, Some(c), rate, now);
    var balance := AffilateBalance(db.payments, c.id);
    WithdrawalKeepsBalance(db.payments, Withdrawal(c.id, balance, CONFIRMED, AFFILATE_WITHDRAWAL_DAYS), c.id);
  }

  /**
   * As written, both handlers fail for every request and write nothing,
   * while the intended balance is answered to any caller with a session.
   */
  lemma AggregateThenThrows(db: Db, principal: Option<Claims>)
    ensures GetAffilateBalanceAsWritten(db, principal).Err?
    ensures WithdrawAffilateRewardDaysAsWritten(db, principal).db == db
    ensures WithdrawAffilateRewardDaysAsWritten(db, principal).result.Err?
    ensures principal.Some? ==> GetAffilateBalance(db, principal).Ok?
  {
  }

  /**
   * Where the intended days withdrawal succeeds and extends the caller's
   * subscription, the handler as written throws and leaves it as it was.
   */
  lemma WithdrawDaysAsWrittenDiffers(db: Db, cfg: Config, c: Claims, rate: real, now: Date, k: nat)
    requires cfg.monthPrice != 0
    requires k < |db.users| && db.users[k].id == c.id
    requires forall j :: 0 <= j < k ==> db.users[j].id != c.id
    requires WithdrawalDays(AffilateBalance(db.payments, c.id), rate, cfg.monthPrice) >= 1
    ensures WithdrawAffilateRewardDays(db, cfg, Some(c), rate, now).result == Ok("ok")
    ensures WithdrawAffilateRewardDaysAsWritten(db, Some(c)) == Step(db, Err(AggregateNotThenable))
  {
    WithdrawDaysExtends(db, cfg, c, rate, now, k);
  }
}

=== FILE: common.dfy ===
/** Failure-carrying wrappers shared by every module of the model. */
module Common {

  /** A value that may be absent: a missing document or field, a `null`. */
  datatype Option<+T> = None | Some(value: T)

  /** The outcome of a resolver: its return value, or the exception it throws. */
  datatype Result<+T, +E> = Ok(value: T) | Err(error: E)
}

=== FILE: configs.dfy ===
/**
 * The two configuration resolvers of graphql/resolvers.js: `getConfig`,
 * which renders one WireGuard configuration for the caller, and
 * `getAllConfigsZIP`, which adds one file per server and exit country to
 * an archive where a repeated name replaces the earlier file.
 * The servers collection is a parameter; the base64 and zip encodings of
 * the answers are not modelled.
 */
module Configs {
  import opened Common
  import opened Ledger
  import opened WireGuard

  /** `servers.findOne({country})`: the first server in that country, if any. */
  function FindServer(servers: seq<Server>, country: string): (r: Option<nat>)
    ensures r.Some? ==> r.value < |servers| && servers[r.value].country == country
    ensures r.Some? ==> forall j :: 0 <= j < r.value ==> servers[j].country != country
    ensures r.None? <==> forall j :: 0 <= j < |servers| ==> servers[j].country != country
  {
    if servers == [] then None
    else if servers[0].country == country then Some(0)
    else match FindServer(servers[1..], country)
      case None => None
      case Some(k) => Some(k + 1)
  }

  /**
   * `getConfig`: the caller's private key rendered into the template of the
   * first server in `country`, with the port that selects `exitCountry`. A
   * missing user or server makes the resolver throw.
   */
  function GetConfig(db: Db, principal: Option<Claims>, servers: seq<Server>, country: string,
                     dnsType: DnsType, exitCountry: string, env: Env): Result<string, Error>
  {
    if principal.None? then Err(NoPrincipal)
    else match FindUser(db.users, ById(principal.value.id))
      case None => Err(NoSuchDocument)
      case Some(i) =>
        match FindServer(servers, country)
        case None => Err(NoSuchDocument)
        case Some(j) =>
          Ok(ConfigTemplate(env, servers[j], dnsType, db.users[i].privateKey, ExitPort(country, exitCountry)))
  }

  /** `getAllConfigsZIP`: the archive the `zip.file` calls leave, for the caller's private key. */
  function AllConfigs(db: Db, principal: Option<Claims>, servers: seq<Server>): Result<map<string, Rendering>, Error> {
    if principal.None? then Err(NoPrincipal)
    else match FindUser(db.users, ById(principal.value.id))
      case None => Err(NoSuchDocument)
      case Some(i) => Ok(Archive(ZipEntries(servers, Countries(servers), db.users[i].privateKey)))
  }

  // ---------------------------------------------------------------------
  // Properties

  /** An exit port is never empty and never holds a newline. */
  lemma PortForSingleLine(c: string)
    ensures PortFor(c) != "" && SingleLine(PortFor(c))
  {
    forall i | 0 <= i < 2 ensures SingleLine(CharCodeString(c, i)) {
      if i < |c| {
        DecimalRoundTrip(c[i] as int);
      }
    }
    SingleConcat(CharCodeString(c, 0), CharCodeString(c, 1));
  }

  /**
   * A rendered configuration carries the caller's private key, and its
   * endpoint port is the code pair of `exitCountry` when that differs from
   * `country`, else the server's own port.
   */
  lemma GetConfigRenders(db: Db, c: Claims, servers: seq<Server>, country: string, dnsType: DnsType,
                         exitCountry: string, env: Env, k: nat, j: nat)
    requires Valid(db) && k < |db.users| && db.users[k].id == c.id
    requires j < |servers| && servers[j].country == country
    requires forall i :: 0 <= i < j ==> servers[i].country != country
    requires var s := servers[j];
      && SingleLine(db.users[k].privateKey) && SingleLine(s.address) && SingleLine(Dns(s, dnsType))
      && SingleLine(s.publicKey) && SingleLine(s.endpointIP) && SingleLine(s.endpointPort)
    ensures var r := GetConfig(db, Some(c), servers, country, dnsType, exitCountry, env);
      && r.Ok?
      && Field(SplitLines(r.value), "PrivateKey") == Some(db.users[k].privateKey)
      && Field(SplitLines(r.value), "Endpoint")
         == Some(servers[j].endpointIP + ":" + (if exitCountry != country then PortFor(exitCountry) else servers[j].endpointPort))
  {
    FindUserAt(db, ById(c.id), k);
    assert FindServer(servers, country) == Some(j);
    var s := servers[j];
    var privateKey := db.users[k].privateKey;
    var port := ExitPort(country, exitCountry);
    PortForSingleLine(exitCountry);
    assert EndpointPort(s, port) == if exitCountry != country then PortFor(exitCountry) else s.endpointPort;
    TemplatesAgree(s, dnsType, privateKey, port);
    PrivateKeyField(s, dnsType, privateKey, port);
    EndpointField(s, dnsType, privateKey, port);
  }

  /** Without a session, or without a server in `country`, `getConfig` throws. */
  lemma GetConfigFails(db: Db, principal: Option<Claims>, servers: seq<Server>, country: string,
                       dnsType: DnsType, exitCountry: string, env: Env)
    requires principal.None? || forall j :: 0 <= j < |servers| ==> servers[j].country != country
    ensures GetConfig(db, principal, servers, country, dnsType, exitCountry, env).Err?
  {
  }

  /**
   * The loops call `zip.file` twice per server and twice more per other
   * country served anywhere; a name is in the archive exactly when some
   * server should have it; and each file is the last call under its name,
   * rendered with the caller's private key.
   */
  lemma AllConfigsContents(db: Db, c: Claims, servers: seq<Server>, k: nat, name: string)
    requires Valid(db) && k < |db.users| && db.users[k].id == c.id
    ensures var files := ZipEntries(servers, Countries(servers), db.users[k].privateKey);
      var r := AllConfigs(db, Some(c), servers);
      && r.Ok?
      && |files| == 2 * |servers| * |Countries(servers)|
      && (name in r.value <==> exists i :: 0 <= i < |servers| && NamedFor(servers[i], Countries(servers), name))
      && (name in r.value ==> exists j :: LastNamed(files, name, j) && r.value[name] == files[j].config)
      && (name in r.value ==> r.value[name].privateKey == db.users[k].privateKey)
  {
    var files := ZipEntries(servers, Countries(servers), db.users[k].privateKey);
    FindUserAt(db, ById(c.id), k);
    ConfigFilesCount(servers, db.users[k].privateKey);
    ZipEntriesNames(servers, Countries(servers), db.users[k].privateKey, name);
    ArchiveEntry(files, name);
    ZipEntriesKey(servers, Countries(servers), db.users[k].privateKey);
  }
}

=== FILE: dates.dfy ===
/**
 * Dates as whole day counts. The server adds `addDays` to `Date.prototype`
 * (index.js); here a date is the number of days since an arbitrary epoch,
 * so calendar and time-zone effects of `setDate` do not arise.
 */
module Dates {

  type Date = int

  /**
   * `date.addDays(days)`: a NEW date `days` days after `date`. Being a value,
   * the receiver cannot be changed by the call.
   */
  function AddDays(date: Date, days: int): Date
  {
    date + days
  }

  lemma AddDaysZero(date: Date)
    ensures AddDays(date, 0) == date
  {
  }

  lemma AddDaysCompose(date: Date, a: int, b: int)
    ensures AddDays(AddDays(date, a), b) == AddDays(date, a + b)
  {
  }

  /** Adding more days never yields an earlier date. */
  lemma AddDaysMonotonic(date: Date, a: int, b: int)
    requires a <= b
    ensures AddDays(date, a) <= AddDays(date, b)
  {
  }
}

=== FILE: ledger.dfy ===
/**
 * The three MongoDB collections the resolvers and the payment webhook work on
 * (`users`, `subscriptions`, `payments`), as values, together with the
 * lookups and the expiry extension that several operations share.
 */
module Ledger {
  import opened Common
  import opened Dates

  type UserId = string     // the string form of a user's ObjectId
  type Token = string      // a login token (random hex)
  type Key = string        // a base64 curve25519 key
  type Hash = string       // an argon2 digest
  type InvoiceId = string  // the payment processor's invoice id

  // Statuses and entry types are free strings: the webhook stores whatever
  // status the processor reports, and one filter names a type nobody writes.
  const CONFIRMED: string := "CONFIRMED"
  const UNCONFIRMED: string := "UNCONFIRMED"
  const TOP_UP: string := "TOP_UP"
  const AFFILATE_WITHDRAWAL_BTC: string := "AFFILATE_WITHDRAWAL_BTC"
  const AFFILATE_WITHDRAWAL_DAYS: string := "AFFILATE_WITHDRAWAL_DAYS"
  /** The type the days-withdrawal's debit filter asks for; no insert uses it. */
  const AFFILATE_WITHDRAWAL: string := "AFFILATE_WITHDRAWAL"

  /** The settings the resolvers read: TRIAL_DAYS, MONTH_PRICE, ADMIN_IDS. */
  datatype Config = Config(trialDays: int, monthPrice: int, adminIds: seq<UserId>)

  /** A `users` document. `octets` is None when the field is missing or null. */
  datatype User = User(
    id: UserId,
    username: string,
    password: Hash,
    email: Option<string>,
    ref: Option<UserId>,
    loginTokens: seq<Token>,
    publicKey: Key,
    privateKey: Key,
    withdrawedSatoshis: int,
    octets: Option<int>,
    createdAt: Date)

  /** A `subscriptions` document; its `clientId` is the key of the map holding it. */
  datatype Subscription = Subscription(publicKey: Key, expireAt: Date, octets: Option<int>)

  /**
   * A `payments` document. Top-ups are written by `getInvoice`; the two
   * withdrawal kinds carry only a client, an amount, a status and a type
   * (in particular no `ref` and no `invoiceId`).
   */
  datatype Payment =
    | TopUp(
        clientId: UserId,
        publicKey: Key,
        months: int,
        price: int,
        paymentType: string,
        invoiceUrl: string,
        invoiceId: InvoiceId,
        status: string,
        createdAt: Date,
        expirationTime: Date,
        ref: Option<UserId>,
        affilateRewardedSatoshis: int)
    | Withdrawal(
        clientId: UserId,
        affilateWithdrawedSatoshis: int,
        status: string,
        kind: string)
  {
    /** The document's `type` field. */
    function Type(): string {
      if TopUp? then TOP_UP else kind
    }

    /** The document after `$set: {status}`. */
    function WithStatus(s: string): (p: Payment)
      ensures p.status == s && p.Type() == Type() && p.Ref() == Ref()
      ensures p.TopUp? == TopUp? && (TopUp? ==> p.invoiceId == invoiceId)
      ensures p == this.(status := s)
      ensures s == status ==> p == this
    {
      match this
      case TopUp(c, key, m, price, pt, url, id, _, at, exp, r, reward) =>
        TopUp(c, key, m, price, pt, url, id, s, at, exp, r, reward)
      case Withdrawal(c, amount, _, k) => Withdrawal(c, amount, s, k)
    }

    /** The document's `ref` field, None where the document has none. */
    function Ref(): Option<UserId> {
      if TopUp? then ref else None
    }
  }

  datatype Db = Db(users: seq<User>, subscriptions: map<UserId, Subscription>, payments: seq<Payment>)

  /** The claims of a session JWT: `{_id, token}`. */
  datatype Claims = Claims(id: UserId, token: Token)

  /** What the resolvers throw. */
  datatype Error =
    | UserExists        // "User exists"
    | Unauthorized      // "Unathorized"
    | NoPrincipal       // TypeError: `ctx.state.user._id` read while the request is anonymous
    | NoSuchDocument    // TypeError: a field read from a `findOne` that found nothing
    | NotAdmin          // "No-no-no"
    | ErrowNotDefined   // ReferenceError from `new Errow(...)`, where 'Insufficient balance' was meant
    | AggregateNotThenable  // TypeError: `then` called on an aggregation cursor

  /** A resolver's effect: the collections afterwards, and its result. */
  datatype Step<+T> = Step(db: Db, result: Result<T, Error>)

  /** The filter of a `users` lookup: `{_id}` or `{username}`. */
  datatype UserFilter = ById(id: UserId) | ByName(username: string)

  predicate Selects(u: User, f: UserFilter) {
    match f
    case ById(id) => u.id == id
    case ByName(name) => u.username == name
  }

  /** `findOne(filter)` on `users`: the index of the first match, if any. */
  function FindUser(users: seq<User>, f: UserFilter): (r: Option<nat>)
    ensures r.Some? ==> r.value < |users| && Selects(users[r.value], f)
    ensures r.Some? ==> forall j :: 0 <= j < r.value ==> !Selects(users[j], f)
    ensures r.None? <==> forall j :: 0 <= j < |users| ==> !Selects(users[j], f)
  {
    if users == [] then None
    else if Selects(users[0], f) then Some(0)
    else match FindUser(users[1..], f)
      case None => None
      case Some(k) => Some(k + 1)
  }

  /**
   * The highest numeric `octets` among the users: what
   * `find().sort({octets: -1}).limit(1)` yields (missing values sort last).
   */
  function HighestOctets(users: seq<User>): (r: Option<int>)
    ensures r.None? <==> forall i :: 0 <= i < |users| ==> users[i].octets.None?
    ensures r.Some? ==> exists i :: 0 <= i < |users| && users[i].octets == r
    ensures r.Some? ==> forall i :: 0 <= i < |users| && users[i].octets.Some? ==> users[i].octets.value <= r.value
  {
    if users == [] then None
    else
      var rest := HighestOctets(users[..|users| - 1]);
      var last := users[|users| - 1].octets;
      if last.None? then rest
      else if rest.None? || rest.value < last.value then last
      else rest
  }

  /** The `octets` sign-up assigns: highest + 1, or 1 when there is no numeric value. */
  function NextOctets(users: seq<User>): (n: int)
    ensures forall i :: 0 <= i < |users| && users[i].octets.Some? ==> users[i].octets.value < n
    ensures (forall i :: 0 <= i < |users| ==> users[i].octets.None?) ==> n == 1
    ensures (exists i :: 0 <= i < |users| && users[i].octets.Some?) ==>
              exists i :: 0 <= i < |users| && users[i].octets == Some(n - 1)
  {
    match HighestOctets(users)
    case None => 1
    case Some(h) => h + 1
  }

  /**
   * The date an expiry extension starts from: the stored `expireAt` when the
   * client has a subscription (even one already in the past), else `now`.
   */
  function ExtensionBase(subscriptions: map<UserId, Subscription>, clientId: UserId, now: Date): Date {
    if clientId in subscriptions then subscriptions[clientId].expireAt else now
  }

  /**
   * The row `updateOne({clientId}, {$set: {publicKey, expireAt, octets}}, {upsert: true})`
   * leaves, with `expireAt` extended by `days` from its base.
   */
  function ExtendedRow(subscriptions: map<UserId, Subscription>, clientId: UserId, days: int, now: Date,
                       publicKey: Key, octets: Option<int>): (row: Subscription)
    ensures row.publicKey == publicKey && row.octets == octets
    ensures clientId in subscriptions ==> row.expireAt == subscriptions[clientId].expireAt + days
    ensures clientId !in subscriptions ==> row.expireAt == now + days
  {
    Subscription(publicKey, AddDays(ExtensionBase(subscriptions, clientId, now), days), octets)
  }

  /** Ids, usernames and numeric `octets` are each unique across `users`. */
  predicate Valid(db: Db) {
    forall i, j :: 0 <= i < j < |db.users| ==>
      && db.users[i].id != db.users[j].id
      && db.users[i].username != db.users[j].username
      && (db.users[i].octets.Some? ==> db.users[i].octets != db.users[j].octets)
  }

  /** In a valid collection a user's id or username finds exactly that user. */
  lemma FindUserAt(db: Db, f: UserFilter, k: nat)
    requires Valid(db) && k < |db.users| && Selects(db.users[k], f)
    ensures FindUser(db.users, f) == Some(k)
  {
    var r := FindUser(db.users, f);
    assert r.Some? && r.value <= k;
  }

  /** A fresh ObjectId: never used by a user or a subscription before. */
  predicate FreshId(db: Db, id: UserId) {
    && (forall i :: 0 <= i < |db.users| ==> db.users[i].id != id)
    && id !in db.subscriptions
  }
}

=== FILE: store.dfy ===
/**
 * The three MongoDB collections as one in-memory store, and every resolver
 * of the core as a method that reads and writes them in the order the
 * handler does. Each method is proved against the resolver's function over
 * a snapshot of the collections, so the lemmas about those functions are
 * lemmas about the store.
 */
module Store {
  import opened Common
  import opened Dates
  import opened Ledger
  import Accounts
  import Affiliate
  import Webhook
  import WireGuard
  import Configs

  /** `ctx.state` of one request: the decoded JWT claims, or null. */
  class RequestState {
    var user: Option<Claims>

    constructor(user: Option<Claims>)
      ensures this.user == user
    {
      this.user := user;
    }
  }

  class Store {
    var users: seq<User>
    var subscriptions: map<UserId, Subscription>
    var payments: seq<Payment>

    /** The three collections as a value. */
    function Snapshot(): Db
      reads this
    {
      Db(users, subscriptions, payments)
    }

    ghost predicate Valid()
      reads this
    {
      Ledger.Valid(Snapshot())
    }

    /** An empty database. */
    constructor()
      ensures Snapshot() == Db([], map[], []) && Valid()
    {
      users := [];
      subscriptions := map[];
      payments := [];
    }

    /**
     * The second middleware of index.js: a request whose token its user no
     * longer holds continues as anonymous.
     */
    method Authenticate(state: RequestState)
      modifies state
      ensures state.user == Accounts.Authenticate(users, old(state.user))
    {
      if state.user.Some? {
        var authenticated := Accounts.HoldsToken(users, state.user.value);
        if !authenticated {
          state.user := None;
        }
      }
    }

    /** `signUp`; `issued` holds the digest, token, key pair and ObjectId it generates. */
    method SignUp(cfg: Config, username: string, email: Option<string>, ref: Option<UserId>,
                  issued: Accounts.SignUpIssued, now: Date) returns (r: Result<Claims, Error>)
      requires Valid() && FreshId(Snapshot(), issued.id)
      modifies this
      ensures Step(Snapshot(), r) == Accounts.SignUp(old(Snapshot()), cfg, username, email, ref, issued, now)
      ensures Valid()
    {
      ghost var before := Snapshot();
      var userExists := FindUser(users, ByName(username));
      if userExists.Some? {
        return Err(UserExists);
      }
      var octets := NextOctets(users);
      users := users + [User(issued.id, username, issued.hash, email, ref, [issued.token],
                             issued.publicKey, issued.privateKey, 0, Some(octets), now)];
      subscriptions := subscriptions[issued.id := Subscription(issued.publicKey, AddDays(now, cfg.trialDays), Some(octets))];
      r := Ok(Claims(issued.id, issued.token));
      Accounts.SignUpKeepsValid(before, cfg, username, email, ref, issued, now);
    }

    /** `login`; `verify` is argon2's check and `token` the fresh token. */
    method Login(username: string, password: string, verify: Accounts.Verifier, token: Token)
      returns (r: Result<Claims, Error>)
      requires Valid()
      modifies this
      ensures Step(Snapshot(), r) == Accounts.Login(old(Snapshot()), username, password, verify, token)
      ensures Valid()
    {
      ghost var before := Snapshot();
      var found := FindUser(users, ByName(username));
      if found.None? {
        return Err(Unauthorized);
      }
      var user := users[found.value];
      var valid := verify(user.password, password);
      if !valid {
        return Err(Unauthorized);
      }
      users := users[found.value := user.(loginTokens := user.loginTokens + [token])];
      r := Ok(Claims(user.id, token));
      Accounts.LoginAppendsToken(before, username, password, verify, token, found.value);
    }

    /** `changePassword` for the signed-in caller; `hash` and `token` are freshly issued. */
    method ChangePassword(principal: Option<Claims>, hash: Hash, token: Token) returns (r: Result<Claims, Error>)
      requires Valid()
      modifies this
      ensures Step(Snapshot(), r) == Accounts.ChangePassword(old(Snapshot()), principal, hash, token)
      ensures Valid()
    {
      ghost var before := Snapshot();
      if principal.None? {
        return Err(NoPrincipal);
      }
      var id := principal.value.id;
      var found := FindUser(users, ById(id));
      if found.Some? {
        users := users[found.value := users[found.value].(password := hash, loginTokens := [token])];
        Accounts.ChangePasswordResetsTokens(before, principal.value, hash, token, found.value);
      }
      r := Ok(Claims(id, token));
    }

    /** `deleteAccount`. */
    method DeleteAccount(principal: Option<Claims>) returns (r: Result<string, Error>)
      requires Valid()
      modifies this
      ensures Step(Snapshot(), r) == Accounts.DeleteAccount(old(Snapshot()), principal)
      ensures Valid()
    {
      ghost var before := Snapshot();
      if principal.None? {
        return Err(NoPrincipal);
      }
      var found := FindUser(users, ById(principal.value.id));
      if found.Some? {
        var i := found.value;
        users := users[..i] + users[i + 1..];
        Accounts.DeleteAccountRemoves(before, principal.value, i);
      }
      r := Ok("ok");
    }

    /** `getAffilateBalance`: reads only. The withdrawn sum never counts, so the answer is the confirmed rewards. */
    method GetAffilateBalance(principal: Option<Claims>) returns (r: Result<int, Error>)
      ensures r == Affiliate.GetAffilateBalance(Snapshot(), principal)
      ensures r.Ok? ==> r.value == Affiliate.Sum(payments, Affiliate.Match(principal.value.id, Some(CONFIRMED), None), Affiliate.Rewarded)
    {
      if principal.None? {
        return Err(NoPrincipal);
      }
      var u := principal.value.id;
      var rewarded := Affiliate.Sum(payments, Affiliate.Match(u, Some(CONFIRMED), None), Affiliate.Rewarded);
      var withdrawed := Affiliate.Sum(payments, Affiliate.Match(u, None, None), Affiliate.Withdrawed);
      Affiliate.WithdrawedSumIsZero(payments, Affiliate.Match(u, None, None));
      r := Ok(rewarded - withdrawed);
    }

    /** `getInvoice`; `invoice` is the processor's answer and `reward` the rounded affiliate fee. */
    method GetInvoice(cfg: Config, principal: Option<Claims>, months: int, paymentType: string,
                      invoice: Affiliate.CreatedInvoice, reward: int) returns (r: Result<string, Error>)
      requires Valid()
      modifies this
      ensures Step(Snapshot(), r) == Affiliate.GetInvoice(old(Snapshot()), cfg, principal, months, paymentType, invoice, reward)
      ensures Valid()
    {
      if principal.None? {
        return Err(NoPrincipal);
      }
      var id := principal.value.id;
      var found := FindUser(users, ById(id));
      if found.None? {
        return Err(NoSuchDocument);
      }
      var user := users[found.value];
      var price := cfg.monthPrice * months;
      payments := payments + [TopUp(id, user.publicKey, months, price, paymentType, invoice.url, invoice.id,
                                    UNCONFIRMED, invoice.invoiceTime, invoice.expirationTime, user.ref, reward)];
      r := Ok(invoice.url);
    }

    /** `addDaysToClient`. */
    method AddDaysToClient(cfg: Config, principal: Option<Claims>, days: int, clientId: UserId, now: Date)
      returns (r: Result<string, Error>)
      requires Valid()
      modifies this
      ensures Step(Snapshot(), r) == Affiliate.AddDaysToClient(old(Snapshot()), cfg, principal, days, clientId, now)
      ensures Valid()
    {
      if principal.None? {
        return Err(NoPrincipal);
      }
      if principal.value.id !in cfg.adminIds {
        return Err(NotAdmin);
      }
      var found := FindUser(users, ById(clientId));
      if found.None? {
        return Err(NoSuchDocument);
      }
      var user := users[found.value];
      var expireAt := if clientId in subscriptions then subscriptions[clientId].expireAt else now;
      subscriptions := subscriptions[clientId := Subscription(user.publicKey, AddDays(expireAt, days), user.octets)];
      r := Ok("ok");
    }

    /** `withdrawAffilateRewardBTC`; `satoshis` is the rounded amount. */
    method WithdrawAffilateRewardBTC(cfg: Config, principal: Option<Claims>, satoshis: int, clientId: UserId)
      returns (r: Result<string, Error>)
      requires Valid()
      modifies this
      ensures Step(Snapshot(), r) == Affiliate.WithdrawAffilateRewardBTC(old(Snapshot()), cfg, principal, satoshis, clientId)
      ensures Valid()
    {
      if principal.None? {
        return Err(NoPrincipal);
      }
      if principal.value.id !in cfg.adminIds {
        return Err(NotAdmin);
      }
      payments := payments + [Withdrawal(clientId, satoshis, CONFIRMED, AFFILATE_WITHDRAWAL_BTC)];
      r := Ok("ok");
    }

    /** `withdrawAffilateRewardDays`; `rate` is the processor's EUR price of one BTC. */
    method WithdrawAffilateRewardDays(cfg: Config, principal: Option<Claims>, rate: real, now: Date)
      returns (r: Result<string, Error>)
      requires cfg.monthPrice != 0
      requires Valid()
      modifies this
      ensures Step(Snapshot(), r) == Affiliate.WithdrawAffilateRewardDays(old(Snapshot()), cfg, principal, rate, now)
      ensures Valid()
    {
      if principal.None? {
        return Err(NoPrincipal);
      }
      var id := principal.value.id;
      var rewarded := Affiliate.Sum(payments, Affiliate.Match(id, Some(CONFIRMED), Some(TOP_UP)), Affiliate.Rewarded);
      var withdrawed := Affiliate.Sum(payments, Affiliate.Match(id, None, Some(AFFILATE_WITHDRAWAL)), Affiliate.Withdrawed);
      var balance := rewarded - withdrawed;
      var days := Affiliate.WithdrawalDays(balance, rate, cfg.monthPrice);
      if days < 1 {
        return Err(ErrowNotDefined);
      }
      var found := FindUser(users, ById(id));
      if found.None? {
        return Err(NoSuchDocument);
      }
      var user := users[found.value];
      var expireAt := if id in subscriptions then subscriptions[id].expireAt else now;
      subscriptions := subscriptions[id := Subscription(user.publicKey, AddDays(expireAt, days), user.octets)];
      payments := payments + [Withdrawal(id, balance, CONFIRMED, AFFILATE_WITHDRAWAL_DAYS)];
      r := Ok("ok");
    }

    /**
     * The `POST /${WEBHOOK_ENDPOINT}` handler of routes.js; `invoice` is what
     * the processor returns for the notified id. Answers the HTTP status.
     */
    method ReceiveNotification(invoice: Option<Webhook.ProcessorInvoice>, now: Date) returns (code: int)
      requires Valid()
      modifies this
      ensures Webhook.Response(Snapshot(), code) == Webhook.Reconcile(old(Snapshot()), invoice, now)
      ensures Valid()
    {
      if invoice.None? {
        return 500;
      }
      var found := Webhook.FindInvoice(payments, invoice.value.id);
      if found.None? {
        return 500;
      }
      var previous := payments[found.value];
      payments := payments[found.value := previous.WithStatus(invoice.value.status)];
      if previous.status != CONFIRMED && invoice.value.status == CONFIRMED {
        var clientId := previous.clientId;
        var expireAt := if clientId in subscriptions then subscriptions[clientId].expireAt else now;
        var row := if clientId in subscriptions
          then subscriptions[clientId].(publicKey := previous.publicKey, expireAt := AddDays(expireAt, previous.months * 30))
          else Subscription(previous.publicKey, AddDays(expireAt, previous.months * 30), None);
        subscriptions := subscriptions[clientId := row];
      }
      code := 200;
    }

    /** `getConfig`: reads only; `servers` is the servers collection. */
    method GetConfig(principal: Option<Claims>, servers: seq<WireGuard.Server>, country: string,
                     dnsType: WireGuard.DnsType, exitCountry: string, env: WireGuard.Env)
      returns (r: Result<string, Error>)
      ensures r == Configs.GetConfig(Snapshot(), principal, servers, country, dnsType, exitCountry, env)
    {
      if principal.None? {
        return Err(NoPrincipal);
      }
      var found := FindUser(users, ById(principal.value.id));
      if found.None? {
        return Err(NoSuchDocument);
      }
      var privateKey := users[found.value].privateKey;
      var server := Configs.FindServer(servers, country);
      if server.None? {
        return Err(NoSuchDocument);
      }
      var port := WireGuard.ExitPort(country, exitCountry);
      r := Ok(WireGuard.ConfigTemplate(env, servers[server.value], dnsType, privateKey, port));
    }

    /** `getAllConfigsZIP`: reads only; the nested loops run in `WireGuard.ConfigFiles`. */
    method GetAllConfigsZip(principal: Option<Claims>, servers: seq<WireGuard.Server>)
      returns (r: Result<map<string, WireGuard.Rendering>, Error>)
      ensures r == Configs.AllConfigs(Snapshot(), principal, servers)
    {
      if principal.None? {
        return Err(NoPrincipal);
      }
      var found := FindUser(users, ById(principal.value.id));
      if found.None? {
        return Err(NoSuchDocument);
      }
      var files := WireGuard.ConfigFiles(servers, users[found.value].privateKey);
      r := Ok(WireGuard.Archive(files));
    }
  }
}

=== FILE: webhook.dfy ===
/**
 * The payment processor's notification handler (routes.js): fetch the
 * invoice, overwrite the matching ledger entry's status while reading the
 * previous one, and extend the payer's subscription on the step to
 * CONFIRMED.
 */
module Webhook {
  import opened Common
  import opened Dates
  import opened Ledger
  import Affiliate

  /** What `btc.get_invoice(id)` answers. */
  datatype ProcessorInvoice = ProcessorInvoice(id: InvoiceId, status: string)

  /** The collections after the handler, and the HTTP status it sets. */
  datatype Response = Response(db: Db, code: int)

  predicate HasInvoiceId(p: Payment, id: InvoiceId) {
    p.TopUp? && p.invoiceId == id
  }

  /** The entry `findOneAndUpdate({invoiceId})` selects: the first with that id. */
  function FindInvoice(ps: seq<Payment>, id: InvoiceId): (r: Option<nat>)
    ensures r.Some? ==> r.value < |ps| && HasInvoiceId(ps[r.value], id)
    ensures r.Some? ==> forall j :: 0 <= j < r.value ==> !HasInvoiceId(ps[j], id)
    ensures r.None? <==> forall j :: 0 <= j < |ps| ==> !HasInvoiceId(ps[j], id)
  {
    if ps == [] then None
    else if HasInvoiceId(ps[0], id) then Some(0)
    else match FindInvoice(ps[1..], id)
      case None => None
      case Some(k) => Some(k + 1)
  }

  /**
   * The row `updateOne({clientId}, {$set: {publicKey, expireAt}}, {upsert: true})`
   * leaves: an existing row keeps its `octets`; a new one has none.
   */
  function CreditedRow(subscriptions: map<UserId, Subscription>, clientId: UserId, days: int, now: Date,
                       publicKey: Key): Subscription
  {
    var expireAt := AddDays(ExtensionBase(subscriptions, clientId, now), days);
    if clientId in subscriptions then subscriptions[clientId].(publicKey := publicKey, expireAt := expireAt)
    else Subscription(publicKey, expireAt, None)
  }

  /** The handler, for a processor answer `invoice` (None when it returns nothing). */
  function Reconcile(db: Db, invoice: Option<ProcessorInvoice>, now: Date): Response {
    if invoice.None? then Response(db, 500)
    else match FindInvoice(db.payments, invoice.value.id)
      case None => Response(db, 500)
      case Some(i) =>
        var previous := db.payments[i];
        var payments := db.payments[i := previous.WithStatus(invoice.value.status)];
        if previous.status != CONFIRMED && invoice.value.status == CONFIRMED then
          var row := CreditedRow(db.subscriptions, previous.clientId, previous.months * 30, now, previous.publicKey);
          Response(Db(db.users, db.subscriptions[previous.clientId := row], payments), 200)
        else
          Response(db.(payments := payments), 200)
  }

  // ---------------------------------------------------------------------
  // Properties

  lemma NoInvoiceFails(db: Db, now: Date)
    ensures Reconcile(db, None, now) == Response(db, 500)
  {
  }

  /** No ledger entry has the invoice's id: 500, and nothing changes. */
  lemma UnknownInvoiceFails(db: Db, invoice: ProcessorInvoice, now: Date)
    requires forall j :: 0 <= j < |db.payments| ==> !HasInvoiceId(db.payments[j], invoice.id)
    ensures Reconcile(db, Some(invoice), now) == Response(db, 500)
  {
  }

  /**
   * For the first entry carrying the invoice's id: its status becomes the
   * processor's, whatever that is; the subscription of its client is
   * extended by `months*30` days from the stored expiry (or `now`) exactly
   * when the status steps from not CONFIRMED to CONFIRMED, keeping the
   * row's `octets`; otherwise no subscription changes. The answer is 200.
   */
  lemma ReconcileEffect(db: Db, invoice: ProcessorInvoice, now: Date, i: nat)
    requires i < |db.payments| && HasInvoiceId(db.payments[i], invoice.id)
    requires forall j :: 0 <= j < i ==> !HasInvoiceId(db.payments[j], invoice.id)
    ensures var r := Reconcile(db, Some(invoice), now);
      var e := db.payments[i];
      && r.code == 200
      && r.db.users == db.users
      && |r.db.payments| == |db.payments|
      && r.db.payments[i].status == invoice.status
      && r.db.payments[i] == e.WithStatus(invoice.status)
      && (forall j :: 0 <= j < |db.payments| && j != i ==> r.db.payments[j] == db.payments[j])
      && (if e.status != CONFIRMED && invoice.status == CONFIRMED then
            && r.db.subscriptions.Keys == db.subscriptions.Keys + {e.clientId}
            && (forall c :: c in db.subscriptions && c != e.clientId ==> r.db.subscriptions[c] == db.subscriptions[c])
            && r.db.subscriptions[e.clientId].expireAt == ExtensionBase(db.subscriptions, e.clientId, now) + e.months * 30
            && r.db.subscriptions[e.clientId].publicKey == e.publicKey
            && r.db.subscriptions[e.clientId].octets
                 == (if e.clientId in db.subscriptions then db.subscriptions[e.clientId].octets else None)
          else r.db.subscriptions == db.subscriptions)
  {
    assert FindInvoice(db.payments, invoice.id) == Some(i);
  }

  /** The status written is the processor's, so a CONFIRMED entry can fall back. */
  lemma StatusNotOneWay(db: Db, id: InvoiceId, status: string, now: Date, i: nat)
    requires i < |db.payments| && HasInvoiceId(db.payments[i], id) && db.payments[i].status == CONFIRMED
    requires forall j :: 0 <= j < i ==> !HasInvoiceId(db.payments[j], id)
    ensures Reconcile(db, Some(ProcessorInvoice(id, status)), now).db.payments[i].status == status
  {
    ReconcileEffect(db, ProcessorInvoice(id, status), now, i);
  }

  lemma FindInvoiceSetStatus(ps: seq<Payment>, id: InvoiceId, i: nat, status: string)
    requires i < |ps|
    ensures FindInvoice(ps[i := ps[i].WithStatus(status)], id) == FindInvoice(ps, id)
  {
    var qs := ps[i := ps[i].WithStatus(status)];
    assert forall j :: 0 <= j < |ps| ==> (HasInvoiceId(qs[j], id) <==> HasInvoiceId(ps[j], id));
    var a, b := FindInvoice(qs, id), FindInvoice(ps, id);
    if a.Some? && b.Some? {
      assert !(a.value < b.value) && !(b.value < a.value);
    }
  }

  /**
   * Delivering the same CONFIRMED notification again changes nothing: the
   * subscription is extended once, however often the processor retries.
   */
  lemma RedeliveryIsNoOp(db: Db, invoice: ProcessorInvoice, now: Date, later: Date)
    requires invoice.status == CONFIRMED
    ensures var first := Reconcile(db, Some(invoice), now);
      Reconcile(first.db, Some(invoice), later) == first
  {
    var first := Reconcile(db, Some(invoice), now);
    match FindInvoice(db.payments, invoice.id)
    case None =>
    case Some(i) =>
      FindInvoiceSetStatus(db.payments, invoice.id, i, CONFIRMED);
      assert first.db.payments[i].status == CONFIRMED;
      assert first.db.payments[i := first.db.payments[i].WithStatus(CONFIRMED)] == first.db.payments;
  }

  /**
   * Because the status can fall back, a CONFIRMED notification that follows a
   * different one credits the same invoice a second time.
   */
  lemma ConfirmAfterFallbackCreditsAgain(db: Db, id: InvoiceId, other: string, now: Date, i: nat)
    requires i < |db.payments| && HasInvoiceId(db.payments[i], id) && db.payments[i].status == CONFIRMED
    requires forall j :: 0 <= j < i ==> !HasInvoiceId(db.payments[j], id)
    requires other != CONFIRMED
    ensures var fallen := Reconcile(db, Some(ProcessorInvoice(id, other)), now).db;
      var e := db.payments[i];
      var again := Reconcile(fallen, Some(ProcessorInvoice(id, CONFIRMED)), now).db;
      && fallen.subscriptions == db.subscriptions
      && e.clientId in again.subscriptions
      && again.subscriptions[e.clientId].expireAt == ExtensionBase(db.subscriptions, e.clientId, now) + e.months * 30
  {
    var fallen := Reconcile(db, Some(ProcessorInvoice(id, other)), now).db;
    ReconcileEffect(db, ProcessorInvoice(id, other), now, i);
    FindInvoiceSetStatus(db.payments, id, i, other);
    ReconcileEffect(fallen, ProcessorInvoice(id, CONFIRMED), now, i);
  }

  /** The first confirmation of a referred top-up raises the referrer's balance by its reward. */
  lemma ConfirmationRewardsReferrer(db: Db, invoice: ProcessorInvoice, now: Date, i: nat, u: UserId)
    requires i < |db.payments| && HasInvoiceId(db.payments[i], invoice.id)
    requires forall j :: 0 <= j < i ==> !HasInvoiceId(db.payments[j], invoice.id)
    requires invoice.status == CONFIRMED && db.payments[i].status != CONFIRMED
    requires db.payments[i].ref == Some(u)
    ensures Affiliate.AffilateBalance(Reconcile(db, Some(invoice), now).db.payments, u)
         == Affiliate.AffilateBalance(db.payments, u) + db.payments[i].affilateRewardedSatoshis
  {
    ReconcileEffect(db, invoice, now, i);
    assert Reconcile(db, Some(invoice), now).db.payments == db.payments[i := db.payments[i].WithStatus(CONFIRMED)];
    Affiliate.ConfirmRaisesBalance(db.payments, i, u);
  }
}

=== FILE: wireguard.dfy ===
/**
 * The tunnel configuration text (vpn/config.js, `CONFIG_TEMPLATE`) and the
 * two resolvers' pieces around it (graphql/resolvers.js): the exit port of
 * `getConfig` and the archive entries of `getAllConfigsZIP`.
 */
module WireGuard {
  import opened Common

  /** The GraphQL `DNSType`: it names the server field holding the resolver address. */
  datatype DnsType = DnsSimple | DnsAdblock

  /** A `servers` document. `endpointPort` is kept as the text it renders to. */
  datatype Server = Server(
    country: string,
    address: string,
    dnsSimple: string,
    dnsAdblock: string,
    publicKey: string,
    endpointIP: string,
    endpointPort: string)

  /** `server[dnsType]`. */
  function Dns(server: Server, dnsType: DnsType): string {
    match dnsType
    case DnsSimple => server.dnsSimple
    case DnsAdblock => server.dnsAdblock
  }

  /** `port || server.endpointPort`: an absent or empty port falls back to the server's. */
  function EndpointPort(server: Server, port: Option<string>): string {
    if port.Some? && port.value != "" then port.value else server.endpointPort
  }

  /** Lines joined by newlines, as a multi-line template literal reads. */
  function JoinLines(lines: seq<string>): string {
    if lines == [] then ""
    else if |lines| == 1 then lines[0]
    else lines[0] + "\n" + JoinLines(lines[1..])
  }

  /** The production `CONFIG_TEMPLATE`, line by line. */
  function ProductionTemplate(server: Server, dnsType: DnsType, privateKey: string, port: Option<string>): string {
    JoinLines([
      "[Interface]",
      "ListenPort = 51280",
      "PrivateKey = " + privateKey,
      "Address = " + server.address,
      "DNS = " + Dns(server, dnsType),
      "",
      "[Peer]",
      "PublicKey = " + server.publicKey,
      "AllowedIPs = 0.0.0.0/0",
      "Endpoint = " + server.endpointIP + ":" + EndpointPort(server, port)])
  }

  /** The development and test `CONFIG_TEMPLATE`, line by line. */
  function DevelopmentTemplate(server: Server, dnsType: DnsType, privateKey: string, port: Option<string>): string {
    JoinLines([
      "[Interface]",
      "ListenPort = 51280",
      "PrivateKey = " + privateKey,
      "Address = " + server.address,
      "DNS = " + Dns(server, dnsType),
      "",
      "[Peer]",
      "PublicKey = " + server.publicKey,
      "AllowedIPs = 0.0.0.0/0",
      "Endpoint = " + server.endpointIP + ":" + EndpointPort(server, port)])
  }

  /** Which configuration the process loaded (`NODE_ENV === 'production'` or not). */
  datatype Env = Production | Development

  function ConfigTemplate(env: Env, server: Server, dnsType: DnsType, privateKey: string, port: Option<string>): string {
    match env
    case Production => ProductionTemplate(server, dnsType, privateKey, port)
    case Development => DevelopmentTemplate(server, dnsType, privateKey, port)
  }

  /** Both environments render the same text. */
  lemma TemplatesAgree(server: Server, dnsType: DnsType, privateKey: string, port: Option<string>)
    ensures ConfigTemplate(Production, server, dnsType, privateKey, port)
         == ConfigTemplate(Development, server, dnsType, privateKey, port)
  {
  }

  // ---------------------------------------------------------------------
  // Reading a configuration back

  predicate SingleLine(s: string) {
    '\n' !in s
  }

  lemma SingleConcat(a: string, b: string)
    requires SingleLine(a) && SingleLine(b)
    ensures SingleLine(a + b)
  {
  }

  /** The text's lines, split at every newline. */
  function SplitLines(s: string): (lines: seq<string>)
    ensures |lines| >= 1
  {
    if s == [] then [""]
    else if s[0] == '\n' then [""] + SplitLines(s[1..])
    else
      var rest := SplitLines(s[1..]);
      [[s[0]] + rest[0]] + rest[1..]
  }

  lemma {:induction false} SplitSingle(line: string)
    requires SingleLine(line)
    ensures SplitLines(line) == [line]
  {
    if line != [] {
      SplitSingle(line[1..]);
      assert [line[0]] + line[1..] == line;
    }
  }

  lemma {:induction false} SplitFirst(line: string, rest: string)
    requires SingleLine(line)
    ensures SplitLines(line + "\n" + rest) == [line] + SplitLines(rest)
  {
    var s := line + "\n" + rest;
    if line == [] {
      assert s == "\n" + rest;
      assert s[1..] == rest;
    } else {
      assert s[1..] == line[1..] + "\n" + rest;
      SplitFirst(line[1..], rest);
      assert [line[0]] + line[1..] == line;
    }
  }

  /** Splitting undoes joining, as long as no line holds a newline. */
  lemma {:induction false} SplitJoin(lines: seq<string>)
    requires |lines| >= 1
    requires forall i :: 0 <= i < |lines| ==> SingleLine(lines[i])
    ensures SplitLines(JoinLines(lines)) == lines
  {
    if |lines| == 1 {
      SplitSingle(lines[0]);
    } else {
      SplitJoin(lines[1..]);
      SplitFirst(lines[0], JoinLines(lines[1..]));
    }
  }

  predicate StartsWith(line: string, prefix: string) {
    |prefix| <= |line| && line[..|prefix|] == prefix
  }

  /**
   * A line scanner: the text after `key = ` on the first line that starts
   * with it. It reads back what the template wrote, nothing more.
   */
  function Field(lines: seq<string>, key: string): Option<string> {
    if lines == [] then None
    else if StartsWith(lines[0], key + " = ") then Some(lines[0][|key| + 3..])
    else Field(lines[1..], key)
  }

  /** The first line whose character `c` matches the key's is the key's line. */
  lemma {:induction false} FieldByChar(lines: seq<string>, key: string, k: nat, c: nat)
    requires k < |lines| && StartsWith(lines[k], key + " = ")
    requires c < |key|
    requires forall j :: 0 <= j < k ==> c >= |lines[j]| || lines[j][c] != key[c]
    ensures Field(lines, key) == Some(lines[k][|key| + 3..])
  {
    if k > 0 {
      assert (key + " = ")[c] == key[c];
      assert !StartsWith(lines[0], key + " = ");
      FieldByChar(lines[1..], key, k - 1, c);
    }
  }

  /** Every value the template interpolates fits on one line. */
  predicate FieldsSingleLine(server: Server, dnsType: DnsType, privateKey: string, port: Option<string>) {
    && SingleLine(privateKey) && SingleLine(server.address) && SingleLine(Dns(server, dnsType))
    && SingleLine(server.publicKey) && SingleLine(server.endpointIP) && SingleLine(EndpointPort(server, port))
  }

  /** The rendered text splits back into the template's ten lines. */
  lemma TemplateSplits(server: Server, dnsType: DnsType, privateKey: string, port: Option<string>)
    requires FieldsSingleLine(server, dnsType, privateKey, port)
    ensures SplitLines(ProductionTemplate(server, dnsType, privateKey, port)) == [
      "[Interface]",
      "ListenPort = 51280",
      "PrivateKey = " + privateKey,
      "Address = " + server.address,
      "DNS = " + Dns(server, dnsType),
      "",
      "[Peer]",
      "PublicKey = " + server.publicKey,
      "AllowedIPs = 0.0.0.0/0",
      "Endpoint = " + server.endpointIP + ":" + EndpointPort(server, port)]
  {
    TemplateLinesSingle(server, dnsType, privateKey, port);
    SplitTen("[Interface]", "ListenPort = 51280", "PrivateKey = " + privateKey, "Address = " + server.address,
      "DNS = " + Dns(server, dnsType), "", "[Peer]", "PublicKey = " + server.publicKey, "AllowedIPs = 0.0.0.0/0",
      "Endpoint = " + server.endpointIP + ":" + EndpointPort(server, port));
  }

  /** The template's fixed lines hold no newline. */
  lemma FixedLinesSingle()
    ensures SingleLine("[Interface]") && SingleLine("ListenPort = 51280") && SingleLine("")
    ensures SingleLine("[Peer]") && SingleLine("AllowedIPs = 0.0.0.0/0")
  {
  }

  /** Nor do the prefixes of its filled-in lines. */
  lemma PrefixesSingle()
    ensures SingleLine("PrivateKey = ") && SingleLine("Address = ") && SingleLine("DNS = ")
    ensures SingleLine("PublicKey = ") && SingleLine("Endpoint = ") && SingleLine(":")
  {
  }

  lemma TemplateLinesSingle(server: Server, dnsType: DnsType, privateKey: string, port: Option<string>)
    requires FieldsSingleLine(server, dnsType, privateKey, port)
    ensures SingleLine("[Interface]") && SingleLine("ListenPort = 51280") && SingleLine("")
    ensures SingleLine("[Peer]") && SingleLine("AllowedIPs = 0.0.0.0/0")
    ensures SingleLine("PrivateKey = " + privateKey) && SingleLine("Address = " + server.address)
    ensures SingleLine("DNS = " + Dns(server, dnsType)) && SingleLine("PublicKey = " + server.publicKey)
    ensures SingleLine("Endpoint = " + server.endpointIP + ":" + EndpointPort(server, port))
  {
    FixedLinesSingle();
    PrefixesSingle();
    SingleConcat("PrivateKey = ", privateKey);
    SingleConcat("Address = ", server.address);
    SingleConcat("DNS = ", Dns(server, dnsType));
    SingleConcat("PublicKey = ", server.publicKey);
    SingleConcat("Endpoint = ", server.endpointIP);
    SingleConcat("Endpoint = " + server.endpointIP, ":");
    SingleConcat("Endpoint = " + server.endpointIP + ":", EndpointPort(server, port));
  }

  lemma SplitTen(l0: string, l1: string, l2: string, l3: string, l4: string,
                 l5: string, l6: string, l7: string, l8: string, l9: string)
    requires SingleLine(l0) && SingleLine(l1) && SingleLine(l2) && SingleLine(l3) && SingleLine(l4)
    requires SingleLine(l5) && SingleLine(l6) && SingleLine(l7) && SingleLine(l8) && SingleLine(l9)
    ensures SplitLines(JoinLines([l0, l1, l2, l3, l4, l5, l6, l7, l8, l9])) == [l0, l1, l2, l3, l4, l5, l6, l7, l8, l9]
  {
    var lines := [l0, l1, l2, l3, l4, l5, l6, l7, l8, l9];
    forall i | 0 <= i < |lines| ensures SingleLine(lines[i]) {
    }
    SplitJoin(lines);
  }

  /**
   * Reading the rendered text back yields the fixed listen port, the caller's
   * private key verbatim, the server's address, the selected DNS field, the
   * server's public key, the catch-all AllowedIPs and the endpoint with the
   * given port (or the server's own when none is given).
   */
  lemma TemplateFields(server: Server, dnsType: DnsType, privateKey: string, port: Option<string>)
    requires FieldsSingleLine(server, dnsType, privateKey, port)
    ensures var lines := SplitLines(ProductionTemplate(server, dnsType, privateKey, port));
      && |lines| == 10 && lines[0] == "[Interface]" && lines[6] == "[Peer]"
      && Field(lines, "ListenPort") == Some("51280")
      && Field(lines, "PrivateKey") == Some(privateKey)
      && Field(lines, "Address") == Some(server.address)
      && Field(lines, "DNS") == Some(Dns(server, dnsType))
      && Field(lines, "PublicKey") == Some(server.publicKey)
      && Field(lines, "AllowedIPs") == Some("0.0.0.0/0")
      && Field(lines, "Endpoint") == Some(server.endpointIP + ":" + EndpointPort(server, port))
  {
    TemplateSplits(server, dnsType, privateKey, port);
    ListenPortField(server, dnsType, privateKey, port);
    PrivateKeyField(server, dnsType, privateKey, port);
    AddressField(server, dnsType, privateKey, port);
    DnsField(server, dnsType, privateKey, port);
    PublicKeyField(server, dnsType, privateKey, port);
    AllowedIPsField(server, dnsType, privateKey, port);
    EndpointField(server, dnsType, privateKey, port);
  }

  /** The listen port is always 51280. */
  lemma ListenPortField(server: Server, dnsType: DnsType, privateKey: string, port: Option<string>)
    requires FieldsSingleLine(server, dnsType, privateKey, port)
    ensures Field(SplitLines(ProductionTemplate(server, dnsType, privateKey, port)), "ListenPort") == Some("51280")
  {
    TemplateSplits(server, dnsType, privateKey, port);
    KeyLine(SplitLines(ProductionTemplate(server, dnsType, privateKey, port)), "ListenPort", 1, "51280", 0);
  }

  /** The caller's private key appears verbatim. */
  lemma PrivateKeyField(server: Server, dnsType: DnsType, privateKey: string, port: Option<string>)
    requires FieldsSingleLine(server, dnsType, privateKey, port)
    ensures Field(SplitLines(ProductionTemplate(server, dnsType, privateKey, port)), "PrivateKey") == Some(privateKey)
  {
    TemplateSplits(server, dnsType, privateKey, port);
    KeyLine(SplitLines(ProductionTemplate(server, dnsType, privateKey, port)), "PrivateKey", 2, privateKey, 1);
  }

  /** The interface address is the server's `address`. */
  lemma AddressField(server: Server, dnsType: DnsType, privateKey: string, port: Option<string>)
    requires FieldsSingleLine(server, dnsType, privateKey, port)
    ensures Field(SplitLines(ProductionTemplate(server, dnsType, privateKey, port)), "Address") == Some(server.address)
  {
    TemplateSplits(server, dnsType, privateKey, port);
    KeyLine(SplitLines(ProductionTemplate(server, dnsType, privateKey, port)), "Address", 3, server.address, 0);
  }

  /** The DNS line carries the server field `dnsType` selects. */
  lemma DnsField(server: Server, dnsType: DnsType, privateKey: string, port: Option<string>)
    requires FieldsSingleLine(server, dnsType, privateKey, port)
    ensures Field(SplitLines(ProductionTemplate(server, dnsType, privateKey, port)), "DNS") == Some(Dns(server, dnsType))
  {
    TemplateSplits(server, dnsType, privateKey, port);
    KeyLine(SplitLines(ProductionTemplate(server, dnsType, privateKey, port)), "DNS", 4, Dns(server, dnsType), 0);
  }

  /** The peer key is the server's public key. */
  lemma PublicKeyField(server: Server, dnsType: DnsType, privateKey: string, port: Option<string>)
    requires FieldsSingleLine(server, dnsType, privateKey, port)
    ensures Field(SplitLines(ProductionTemplate(server, dnsType, privateKey, port)), "PublicKey") == Some(server.publicKey)
  {
    TemplateSplits(server, dnsType, privateKey, port);
    KeyLine(SplitLines(ProductionTemplate(server, dnsType, privateKey, port)), "PublicKey", 7, server.publicKey, 1);
  }

  /** All traffic goes through the tunnel. */
  lemma AllowedIPsField(server: Server, dnsType: DnsType, privateKey: string, port: Option<string>)
    requires FieldsSingleLine(server, dnsType, privateKey, port)
    ensures Field(SplitLines(ProductionTemplate(server, dnsType, privateKey, port)), "AllowedIPs") == Some("0.0.0.0/0")
  {
    TemplateSplits(server, dnsType, privateKey, port);
    KeyLine(SplitLines(ProductionTemplate(server, dnsType, privateKey, port)), "AllowedIPs", 8, "0.0.0.0/0", 1);
  }

  /** The endpoint is the server's IP with the given port, or the server's own port. */
  lemma EndpointField(server: Server, dnsType: DnsType, privateKey: string, port: Option<string>)
    requires FieldsSingleLine(server, dnsType, privateKey, port)
    ensures Field(SplitLines(ProductionTemplate(server, dnsType, privateKey, port)), "Endpoint") == Some(server.endpointIP + ":" + EndpointPort(server, port))
  {
    TemplateSplits(server, dnsType, privateKey, port);
    KeyLine(SplitLines(ProductionTemplate(server, dnsType, privateKey, port)), "Endpoint", 9, server.endpointIP + ":" + EndpointPort(server, port), 0);
  }

  /** `Field` finds `value` on line `k` when the earlier lines differ from the key at character `c`. */
  lemma KeyLine(lines: seq<string>, key: string, k: nat, value: string, c: nat)
    requires k < |lines| && lines[k] == key + " = " + value
    requires c < |key|
    requires forall j :: 0 <= j < k ==> c >= |lines[j]| || lines[j][c] != key[c]
    ensures Field(lines, key) == Some(value)
  {
    assert lines[k][..|key + " = "|] == key + " = ";
    assert lines[k][|key| + 3..] == value;
    FieldByChar(lines, key, k, c);
  }

  // ---------------------------------------------------------------------
  // The exit port of getConfig

  function Digit(d: nat): char
    requires d < 10
  {
    "0123456789"[d]
  }

  function DigitValue(c: char): nat {
    if '0' <= c <= '9' then (c as int - '0' as int) else 0
  }

  /** `n.toString()` for a non-negative integer. */
  function DecimalString(n: nat): (s: string)
    ensures |s| >= 1
    decreases n
  {
    if n < 10 then [Digit(n)] else DecimalString(n / 10) + [Digit(n % 10)]
  }

  /** The number a string of decimal digits denotes. */
  function DecimalValue(s: string): nat {
    if s == [] then 0 else DecimalValue(s[..|s| - 1]) * 10 + DigitValue(s[|s| - 1])
  }

  lemma DigitRoundTrip(d: nat)
    requires d < 10
    ensures '0' <= Digit(d) <= '9' && DigitValue(Digit(d)) == d
  {
  }

  lemma {:induction false} DecimalRoundTrip(n: nat)
    ensures DecimalValue(DecimalString(n)) == n
    ensures forall k :: 0 <= k < |DecimalString(n)| ==> '0' <= DecimalString(n)[k] <= '9'
    decreases n
  {
    var s := DecimalString(n);
    DigitRoundTrip(n % 10);
    if n < 10 {
      assert DecimalValue(s) == DecimalValue([]) * 10 + DigitValue(s[0]);
    } else {
      DecimalRoundTrip(n / 10);
      assert s[..|s| - 1] == DecimalString(n / 10);
      assert DigitValue(s[|s| - 1]) == n % 10;
      assert n == (n / 10) * 10 + n % 10;
    }
  }

  /** Numbers of two decimal digits render to two characters. */
  lemma TwoDigits(n: nat)
    requires 10 <= n < 100
    ensures |DecimalString(n)| == 2
  {
    assert DecimalString(n) == DecimalString(n / 10) + [Digit(n % 10)];
  }

  /** `s.charCodeAt(i).toString()`: the decimal code unit, or "NaN" past the end. */
  function CharCodeString(s: string, i: nat): string {
    if i < |s| then DecimalString(s[i] as int) else "NaN"
  }

  /** The port that selects exit country `c`: the codes of its first two characters. */
  function PortFor(c: string): string {
    CharCodeString(c, 0) + CharCodeString(c, 1)
  }

  /** `getConfig`'s port: null unless the exit country differs from the server's country. */
  function ExitPort(country: string, exitCountry: string): Option<string> {
    if exitCountry != country then Some(PortFor(exitCountry)) else None
  }

  lemma ExitPortExample()
    ensures ExitPort("SE", "SE") == None
    ensures ExitPort("DE", "SE") == Some("8369")
  {
    assert "SE"[0] as int == 83 && "SE"[1] as int == 69;
    assert Digit(8) == '8' && Digit(3) == '3' && Digit(6) == '6' && Digit(9) == '9';
    assert DecimalString(83) == [Digit(8)] + [Digit(3)];
    assert DecimalString(69) == [Digit(6)] + [Digit(9)];
    assert CharCodeString("SE", 0) == "83" && CharCodeString("SE", 1) == "69";
    assert PortFor("SE") == "83" + "69" == "8369";
  }

  predicate UpperPair(c: string) {
    |c| >= 2 && 'A' <= c[0] <= 'Z' && 'A' <= c[1] <= 'Z'
  }

  /** Exit countries named by two capital letters get pairwise different ports. */
  lemma PortForInjective(c1: string, c2: string)
    requires UpperPair(c1) && UpperPair(c2)
    requires PortFor(c1) == PortFor(c2)
    ensures c1[..2] == c2[..2]
  {
    var a1, b1 := DecimalString(c1[0] as int), DecimalString(c1[1] as int);
    var a2, b2 := DecimalString(c2[0] as int), DecimalString(c2[1] as int);
    TwoDigits(c1[0] as int); TwoDigits(c1[1] as int);
    TwoDigits(c2[0] as int); TwoDigits(c2[1] as int);
    assert a1 + b1 == a2 + b2;
    assert a1 == (a1 + b1)[..2] && a2 == (a2 + b2)[..2];
    assert b1 == (a1 + b1)[2..] && b2 == (a2 + b2)[2..];
    DecimalRoundTrip(c1[0] as int); DecimalRoundTrip(c2[0] as int);
    DecimalRoundTrip(c1[1] as int); DecimalRoundTrip(c2[1] as int);
    assert c1[0] == c2[0] && c1[1] == c2[1];
  }

  // ---------------------------------------------------------------------
  // The files of getAllConfigsZIP

  /** One `CONFIG_TEMPLATE(server, dnsType, privateKey, port)` call, rendered on demand. */
  datatype Rendering = Rendering(server: Server, dnsType: DnsType, privateKey: string, port: Option<string>)

  /** One `zip.file(name, content)` call. */
  datatype ZipFile = ZipFile(name: string, config: Rendering)

  /** `<c>.conf`, `<c> - AdBlock.conf`, `<c> - <exit>.conf`, `<c> - <exit> - AdBlock.conf`. */
  function FileName(country: string, exit: Option<string>, dnsType: DnsType): string {
    var stem := if exit.Some? then country + " - " + exit.value else country;
    match dnsType
    case DnsSimple => stem + ".conf"
    case DnsAdblock => stem + " - AdBlock.conf"
  }

  /** `[...new Set(servers.map(server => server.country))]`: first occurrences, in order. */
  function Countries(servers: seq<Server>): (cs: seq<string>)
    ensures forall i, j :: 0 <= i < j < |cs| ==> cs[i] != cs[j]
    ensures forall c :: c in cs <==> exists i :: 0 <= i < |servers| && servers[i].country == c
  {
    if servers == [] then []
    else
      var init := Countries(servers[..|servers| - 1]);
      var c := servers[|servers| - 1].country;
      assert forall i :: 0 <= i < |servers| - 1 ==> servers[..|servers| - 1][i] == servers[i];
      if c in init then init else init + [c]
  }

  /** The two files that route `server` out through country `c`. */
  function ExitPair(server: Server, c: string, privateKey: string): seq<ZipFile> {
    [ZipFile(FileName(server.country, Some(c), DnsSimple), Rendering(server, DnsSimple, privateKey, Some(PortFor(c)))),
     ZipFile(FileName(server.country, Some(c), DnsAdblock), Rendering(server, DnsAdblock, privateKey, Some(PortFor(c))))]
  }

  /** The exit files for each country in `cs` other than the server's own. */
  function ExitFiles(server: Server, cs: seq<string>, privateKey: string): seq<ZipFile> {
    if cs == [] then []
    else
      var c := cs[|cs| - 1];
      ExitFiles(server, cs[..|cs| - 1], privateKey)
        + (if c != server.country then ExitPair(server, c, privateKey) else [])
  }

  /** The two direct files of a server (no port: the server's own endpoint). */
  function DirectFiles(server: Server, privateKey: string): seq<ZipFile> {
    [ZipFile(FileName(server.country, None, DnsSimple), Rendering(server, DnsSimple, privateKey, None)),
     ZipFile(FileName(server.country, None, DnsAdblock), Rendering(server, DnsAdblock, privateKey, None))]
  }

  /** Every `zip.file` call of the nested loops, in order. */
  function ZipEntries(servers: seq<Server>, cs: seq<string>, privateKey: string): seq<ZipFile> {
    if servers == [] then []
    else
      var server := servers[|servers| - 1];
      ZipEntries(servers[..|servers| - 1], cs, privateKey)
        + DirectFiles(server, privateKey) + ExitFiles(server, cs, privateKey)
  }

  lemma ZipEntriesNext(servers: seq<Server>, cs: seq<string>, privateKey: string, i: nat)
    requires i < |servers|
    ensures ZipEntries(servers[..i + 1], cs, privateKey)
         == ZipEntries(servers[..i], cs, privateKey) + DirectFiles(servers[i], privateKey) + ExitFiles(servers[i], cs, privateKey)
  {
    assert servers[..i + 1][..i] == servers[..i];
  }

  lemma ExitFilesNext(server: Server, cs: seq<string>, privateKey: string, j: nat)
    requires j < |cs|
    ensures ExitFiles(server, cs[..j + 1], privateKey)
         == ExitFiles(server, cs[..j], privateKey) + (if cs[j] != server.country then ExitPair(server, cs[j], privateKey) else [])
  {
    assert cs[..j + 1][..j] == cs[..j];
  }

  /** The inner loop of `getAllConfigsZIP`: one server's files routed out through the other countries. */
  method AppendExitFiles(server: Server, countries: seq<string>, privateKey: string, start: seq<ZipFile>)
    returns (files: seq<ZipFile>)
    ensures files == start + ExitFiles(server, countries, privateKey)
  {
    files := start;
    for j := 0 to |countries|
      invariant files == start + ExitFiles(server, countries[..j], privateKey)
    {
      var country := countries[j];
      ExitFilesNext(server, countries, privateKey, j);
      if country != server.country {
        var port := PortFor(country);
        var simple := ZipFile(FileName(server.country, Some(country), DnsSimple),
                              Rendering(server, DnsSimple, privateKey, Some(port)));
        var adblock := ZipFile(FileName(server.country, Some(country), DnsAdblock),
                               Rendering(server, DnsAdblock, privateKey, Some(port)));
        assert ExitPair(server, country, privateKey) == [simple, adblock];
        ghost var before := files;
        files := files + [simple];
        files := files + [adblock];
        assert files == before + [simple, adblock];
      }
    }
    assert countries[..|countries|] == countries;
  }

  /** The nested loops of `getAllConfigsZIP`, collecting the files they add. */
  method ConfigFiles(servers: seq<Server>, privateKey: string) returns (files: seq<ZipFile>)
    ensures files == ZipEntries(servers, Countries(servers), privateKey)
  {
    var countries := Countries(servers);
    files := [];
    for i := 0 to |servers|
      invariant files == ZipEntries(servers[..i], countries, privateKey)
    {
      var server := servers[i];
      ghost var done := files;
      files := files + [ZipFile(FileName(server.country, None, DnsSimple), Rendering(server, DnsSimple, privateKey, None))];
      files := files + [ZipFile(FileName(server.country, None, DnsAdblock), Rendering(server, DnsAdblock, privateKey, None))];
      assert files == done + DirectFiles(server, privateKey);
      files := AppendExitFiles(server, countries, privateKey, files);
      ZipEntriesNext(servers, countries, privateKey, i);
    }
    assert servers[..|servers|] == servers;
  }

  /** How many entries of `cs` differ from `c`. */
  function CountOther(cs: seq<string>, c: string): nat {
    if cs == [] then 0 else CountOther(cs[..|cs| - 1], c) + (if cs[|cs| - 1] != c then 1 else 0)
  }

  lemma {:induction false} ExitFilesCount(server: Server, cs: seq<string>, privateKey: string)
    ensures |ExitFiles(server, cs, privateKey)| == 2 * CountOther(cs, server.country)
  {
    if cs != [] {
      ExitFilesCount(server, cs[..|cs| - 1], privateKey);
    }
  }

  lemma {:induction false} CountOtherAbsent(cs: seq<string>, c: string)
    requires c !in cs
    ensures CountOther(cs, c) == |cs|
  {
    if cs != [] {
      CountOtherAbsent(cs[..|cs| - 1], c);
    }
  }

  lemma {:induction false} CountOtherPresent(cs: seq<string>, c: string)
    requires forall i, j :: 0 <= i < j < |cs| ==> cs[i] != cs[j]
    requires c in cs
    ensures CountOther(cs, c) == |cs| - 1
  {
    var init := cs[..|cs| - 1];
    if cs[|cs| - 1] == c {
      assert c !in init;
      CountOtherAbsent(init, c);
    } else {
      CountOtherPresent(init, c);
    }
  }

  /**
   * Every server gets its two direct files and two per other distinct
   * country: `2 * |servers| * |countries|` calls in all.
   */
  lemma {:induction false} ZipEntriesCount(servers: seq<Server>, cs: seq<string>, privateKey: string)
    requires forall i, j :: 0 <= i < j < |cs| ==> cs[i] != cs[j]
    requires forall i :: 0 <= i < |servers| ==> servers[i].country in cs
    ensures |ZipEntries(servers, cs, privateKey)| == 2 * |servers| * |cs|
  {
    if servers != [] {
      var n := |servers| - 1;
      var m := |cs|;
      assert forall i :: 0 <= i < n ==> servers[..n][i] == servers[i];
      ZipEntriesCount(servers[..n], cs, privateKey);
      ExitFilesCount(servers[n], cs, privateKey);
      CountOtherPresent(cs, servers[n].country);
      assert |ZipEntries(servers, cs, privateKey)| == 2 * n * m + 2 * m;
      MulStep(n, m);
    }
  }

  lemma MulStep(n: nat, m: nat)
    ensures 2 * n * m + 2 * m == 2 * (n + 1) * m
  {
  }

  lemma ConfigFilesCount(servers: seq<Server>, privateKey: string)
    ensures |ZipEntries(servers, Countries(servers), privateKey)| == 2 * |servers| * |Countries(servers)|
  {
    ZipEntriesCount(servers, Countries(servers), privateKey);
  }

  ghost predicate HasName(files: seq<ZipFile>, name: string) {
    exists k :: 0 <= k < |files| && files[k].name == name
  }

  /** The server routes out through `cs[j]` under `name`. */
  predicate ExitNamedAt(server: Server, cs: seq<string>, name: string, j: int) {
    0 <= j < |cs| && cs[j] != server.country &&
    (name == FileName(server.country, Some(cs[j]), DnsSimple) || name == FileName(server.country, Some(cs[j]), DnsAdblock))
  }

  /** The names the archive should hold for one server. */
  ghost predicate NamedFor(server: Server, cs: seq<string>, name: string) {
    || name == FileName(server.country, None, DnsSimple)
    || name == FileName(server.country, None, DnsAdblock)
    || exists j :: ExitNamedAt(server, cs, name, j)
  }

  lemma HasNameAppend(a: seq<ZipFile>, b: seq<ZipFile>, name: string)
    ensures HasName(a + b, name) <==> HasName(a, name) || HasName(b, name)
  {
    if HasName(a + b, name) {
      var k :| 0 <= k < |a + b| && (a + b)[k].name == name;
      if k >= |a| { assert b[k - |a|].name == name; }
    }
    if HasName(b, name) {
      var k :| 0 <= k < |b| && b[k].name == name;
      assert (a + b)[|a| + k].name == name;
    }
    if HasName(a, name) {
      var k :| 0 <= k < |a| && a[k].name == name;
      assert (a + b)[k].name == name;
    }
  }

  lemma DirectFilesNames(server: Server, privateKey: string, name: string)
    ensures HasName(DirectFiles(server, privateKey), name)
        <==> name == FileName(server.country, None, DnsSimple) || name == FileName(server.country, None, DnsAdblock)
  {
    var direct := DirectFiles(server, privateKey);
    if HasName(direct, name) {
      var k :| 0 <= k < |direct| && direct[k].name == name;
    }
    if name == FileName(server.country, None, DnsSimple) { assert direct[0].name == name; }
    if name == FileName(server.country, None, DnsAdblock) { assert direct[1].name == name; }
  }

  lemma ExitPairNames(server: Server, c: string, privateKey: string, name: string)
    ensures HasName(ExitPair(server, c, privateKey), name)
        <==> name == FileName(server.country, Some(c), DnsSimple) || name == FileName(server.country, Some(c), DnsAdblock)
  {
    var pair := ExitPair(server, c, privateKey);
    if HasName(pair, name) {
      var k :| 0 <= k < |pair| && pair[k].name == name;
    }
    if name == FileName(server.country, Some(c), DnsSimple) { assert pair[0].name == name; }
    if name == FileName(server.country, Some(c), DnsAdblock) { assert pair[1].name == name; }
  }

  lemma {:induction false} ExitFilesNames(server: Server, cs: seq<string>, privateKey: string, name: string)
    ensures HasName(ExitFiles(server, cs, privateKey), name) <==> exists j :: ExitNamedAt(server, cs, name, j)
  {
    if cs != [] {
      var n := |cs| - 1;
      var c := cs[n];
      var last := if c != server.country then ExitPair(server, c, privateKey) else [];
      ExitFilesNames(server, cs[..n], privateKey, name);
      HasNameAppend(ExitFiles(server, cs[..n], privateKey), last, name);
      if c != server.country {
        ExitPairNames(server, c, privateKey, name);
      }
      assert HasName(last, name) <==> ExitNamedAt(server, cs, name, n);
      ExitNamedPrefix(server, cs, n, name);
    }
  }

  /** Naming through one of the first `n` countries is naming through the prefix. */
  lemma ExitNamedPrefix(server: Server, cs: seq<string>, n: nat, name: string)
    requires n <= |cs|
    ensures (exists j :: ExitNamedAt(server, cs[..n], name, j))
        <==> exists j :: j < n && ExitNamedAt(server, cs, name, j)
  {
    if exists j :: j < n && ExitNamedAt(server, cs, name, j) {
      var j :| j < n && ExitNamedAt(server, cs, name, j);
      assert cs[..n][j] == cs[j];
      assert ExitNamedAt(server, cs[..n], name, j);
    }
    if exists j :: ExitNamedAt(server, cs[..n], name, j) {
      var j :| ExitNamedAt(server, cs[..n], name, j);
      assert cs[..n][j] == cs[j];
      assert ExitNamedAt(server, cs, name, j);
    }
  }

  /**
   * A name is in the archive exactly when it is one some server should have:
   * its two direct files and two per other country in `cs`.
   */
  lemma {:induction false} ZipEntriesNames(servers: seq<Server>, cs: seq<string>, privateKey: string, name: string)
    ensures HasName(ZipEntries(servers, cs, privateKey), name)
        <==> exists i :: 0 <= i < |servers| && NamedFor(servers[i], cs, name)
  {
    if servers != [] {
      var n := |servers| - 1;
      var server := servers[n];
      var init := ZipEntries(servers[..n], cs, privateKey);
      var direct := DirectFiles(server, privateKey);
      ZipEntriesNames(servers[..n], cs, privateKey, name);
      HasNameAppend(init + direct, ExitFiles(server, cs, privateKey), name);
      HasNameAppend(init, direct, name);
      ExitFilesNames(server, cs, privateKey, name);
      DirectFilesNames(server, privateKey, name);
      NamedForLast(servers, cs, name);
    }
  }

  /** Some server names `name` iff one of the first ones or the last one does. */
  lemma NamedForLast(servers: seq<Server>, cs: seq<string>, name: string)
    requires servers != []
    ensures var n := |servers| - 1;
      (exists i :: 0 <= i < |servers| && NamedFor(servers[i], cs, name))
      <==> (exists i :: 0 <= i < n && NamedFor(servers[..n][i], cs, name)) || NamedFor(servers[n], cs, name)
  {
    var n := |servers| - 1;
    if exists i :: 0 <= i < |servers| && NamedFor(servers[i], cs, name) {
      var i :| 0 <= i < |servers| && NamedFor(servers[i], cs, name);
      if i < n { assert servers[..n][i] == servers[i]; }
    }
    if exists i :: 0 <= i < n && NamedFor(servers[..n][i], cs, name) {
      var i :| 0 <= i < n && NamedFor(servers[..n][i], cs, name);
      assert servers[i] == servers[..n][i];
    }
  }

  // ---------------------------------------------------------------------
  // The archive the calls leave behind

  /**
   * The entries JSZip holds after the `zip.file` calls, in order. A call
   * with a name already present replaces that entry, so the last call per
   * name wins.
   */
  function Archive(files: seq<ZipFile>): map<string, Rendering> {
    if files == [] then map[]
    else
      var last := files[|files| - 1];
      Archive(files[..|files| - 1])[last.name := last.config]
  }

  /** `files[k]` is the last call under `name`. */
  predicate LastNamed(files: seq<ZipFile>, name: string, k: int) {
    0 <= k < |files| && files[k].name == name && forall j :: k < j < |files| ==> files[j].name != name
  }

  /**
   * The archive holds a name exactly when some call used it, and holds
   * there the rendering of the last such call.
   */
  lemma {:induction false} ArchiveEntry(files: seq<ZipFile>, name: string)
    ensures name in Archive(files) <==> HasName(files, name)
    ensures name in Archive(files) ==> exists k :: LastNamed(files, name, k) && Archive(files)[name] == files[k].config
  {
    if files != [] {
      var n := |files| - 1;
      var init := files[..n];
      ArchiveEntry(init, name);
      assert init + [files[n]] == files;
      HasNameAppend(init, [files[n]], name);
      if HasName([files[n]], name) {
        var j :| 0 <= j < 1 && [files[n]][j].name == name;
      }
      if files[n].name == name {
        assert [files[n]][0].name == name;
        assert LastNamed(files, name, n);
      } else if name in Archive(init) {
        var k :| LastNamed(init, name, k) && Archive(init)[name] == init[k].config;
        assert LastNamed(files, name, k);
      }
    }
  }

  /** Every call of a server's exit loop renders with `privateKey`. */
  lemma {:induction false} ExitFilesKey(server: Server, cs: seq<string>, privateKey: string)
    ensures forall j :: 0 <= j < |ExitFiles(server, cs, privateKey)| ==> ExitFiles(server, cs, privateKey)[j].config.privateKey == privateKey
  {
    if cs != [] {
      ExitFilesKey(server, cs[..|cs| - 1], privateKey);
    }
  }

  /** Every call of the nested loops renders with `privateKey`. */
  lemma {:induction false} ZipEntriesKey(servers: seq<Server>, cs: seq<string>, privateKey: string)
    ensures forall j :: 0 <= j < |ZipEntries(servers, cs, privateKey)| ==> ZipEntries(servers, cs, privateKey)[j].config.privateKey == privateKey
  {
    if servers != [] {
      ZipEntriesKey(servers[..|servers| - 1], cs, privateKey);
      ExitFilesKey(servers[|servers| - 1], cs, privateKey);
    }
  }

  /** With both servers in one country `c`, each gets only its two direct files. */
  lemma SharedCountryCalls(a: Server, b: Server, c: string, privateKey: string)
    requires a.country == c && b.country == c
    ensures ZipEntries([a, b], Countries([a, b]), privateKey) == DirectFiles(a, privateKey) + DirectFiles(b, privateKey)
  {
    assert [a, b][..1] == [a];
    assert [a][..0] == [];
    assert Countries([a]) == [c];
    assert Countries([a, b]) == [c];
    assert [c][..0] == [];
    assert ExitFiles(a, [c], privateKey) == [];
    assert ExitFiles(b, [c], privateKey) == [];
    assert ZipEntries([a], [c], privateKey) == DirectFiles(a, privateKey);
  }

  /** Four calls that repeat two names leave the later two renderings. */
  lemma ArchiveRepeatedPair(x0: ZipFile, x1: ZipFile, x2: ZipFile, x3: ZipFile)
    requires x0.name == x2.name && x1.name == x3.name
    ensures Archive([x0, x1, x2, x3]) == map[x2.name := x2.config, x3.name := x3.config]
  {
    assert [x0, x1, x2, x3][..3] == [x0, x1, x2];
    assert [x0, x1, x2][..2] == [x0, x1];
    assert [x0, x1][..1] == [x0];
    assert [x0][..0] == [];
    assert Archive([x0]) == map[x0.name := x0.config];
    assert Archive([x0, x1]) == map[x0.name := x0.config][x1.name := x1.config];
    assert Archive([x0, x1, x2]) == Archive([x0, x1])[x2.name := x2.config];
  }

  /**
   * Two servers in one country: four calls, but the archive keeps two files,
   * and `SE.conf` renders the second server.
   */
  lemma SharedCountryExample(a: Server, b: Server, privateKey: string)
    requires a.country == "SE" && b.country == "SE"
    ensures var files := ZipEntries([a, b], Countries([a, b]), privateKey);
      && |files| == 4
      && Archive(files).Keys == {"SE.conf", "SE - AdBlock.conf"}
      && Archive(files)["SE.conf"] == Rendering(b, DnsSimple, privateKey, None)
  {
    SharedCountryCalls(a, b, "SE", privateKey);
    var da, db := DirectFiles(a, privateKey), DirectFiles(b, privateKey);
    assert da + db == [da[0], da[1], db[0], db[1]];
    SwedishDirectNames(b, privateKey);
    ArchiveRepeatedPair(da[0], da[1], db[0], db[1]);
  }

  /** The direct file names of a server in "SE". */
  lemma SwedishDirectNames(server: Server, privateKey: string)
    requires server.country == "SE"
    ensures DirectFiles(server, privateKey)[0].name == "SE.conf"
    ensures DirectFiles(server, privateKey)[1].name == "SE - AdBlock.conf"
  {
  }
}
